=== FILE: README.md ===
# lispy in Dafny

A model of the core of `lispy.c`, a small Lisp interpreter. The core is made of:

- the `lval` value (Integer, Double, Error, Symbol, S-expression, Q-expression);
- the list primitives `lval_add`, `lval_push`, `lval_pop`, `lval_take` and `lval_join`;
- the builtins `list`, `head`, `tail`, `join`, `eval`, `cons`, plus the arithmetic `builtin_op`, with their dispatch `builtin`;
- the evaluator `lval_eval` / `lval_eval_sexpr`;
- the reader `lval_read` (from the parser's syntax tree) and the printer `lval_print` / `lval_expr_print`.

The modules are:

- `Values`: the value datatype, its node count (the termination measure), the error messages, and C99 truncating `/` and `%`.
- `Text`: `strstr` as `Contains`, `%li` as `Show`, `strtol` as `StrToL`, and the decimal reading of `strtod`.
- `Lists`: class `ListVal`, a list lval edited in place. It has a `kind` tag, a `count` and a `cell` array, and the list primitives are its methods.
- `Arith`: `builtin_op` as functions. This covers the non-number check, unary minus, Integer-to-Double promotion, the left fold, and the division-by-zero exit.
- `Semantics`: the builtins, `builtin` and the evaluator as pure functions on values. This is the specification.
- `Interp`: the same operations as the source runs them. The methods consume a `ListVal` argument list by popping, taking and joining cells. Each method is proved to return the value its `Semantics` function gives.
- `Reader` and `Printer`: `lval_read` and `lval_print`, each as a function plus a method with the source's loop.
- `Laws` and `Scenarios`: lemmas relating the operations, and whole evaluations of small inputs.

Evaluation terminates because no step adds nodes. `Semantics.Eval` is proved never to return a larger tree than it was given. The recursion `Eval` → `EvalSexpr` → `Builtin` → `BuiltinEval` → `Eval` decreases the node count, with a rank that breaks ties.

Some consequences of the code that the model makes explicit:

- The grammar's `symbol` rule (lispy.c:432) accepts `^`, `min` and `max`, and `builtin_op` has `pow`, `fmin` and `fmax` branches (lispy.c:330-332 and 345-347). But `builtin` sends a name to `builtin_op` only when `strstr("+-/*%", func)` finds it (lispy.c:373), so these three names give "Unknown Function!" and those branches are never reached (`Laws.GrammarOnlyOperators`, `Scenarios.Power`).
- `(+)` is an S-expression with one child, so `lval_eval_sexpr` returns that child, the symbol `+`, without applying it (lispy.c:394). `builtin` is therefore never called with an empty argument list (`Scenarios.LoneSymbol`, `Scenarios.EvalHeadOfOperators`).
- Unary minus writes `x->num = -x->num` whatever the operand's type (lispy.c:301), so a lone Double comes back unchanged (`Arith.NegateNum`, `Scenarios.UnaryMinus`).
- Because of the `strstr` test, any substring of `+-/*%` reaches `builtin_op`, the empty name and `+-` included. An operator that matches none of the comparisons in `builtin_op` only promotes the first operand (`Arith.FoldNoOp`).

## Model

| member | source | states |
|---|---|---|
| Values.MakeList | lispy.c:61-76 | a list lval of the requested kind holding exactly the given children |
| Values.Size | lispy.c:11-21 | every lval counts at least one node |
| Values.SizeSeqRemove | lispy.c:190-203 | popping a cell removes exactly that cell's nodes from the list |
| Values.TruncDiv | lispy.c:335 | C99 `/` rounds toward zero: the quotient's magnitude is the floored quotient of the magnitudes, and a nonzero quotient is negative exactly when the operands' signs differ |
| Values.TruncMod | lispy.c:339 | C99 `%`: the remainder is smaller than the divisor in magnitude and, unless zero, has the sign of the dividend |
| Values.TruncDivMod | lispy.c:333-340 | C99 integer `/` and `%`: the dividend is divisor times quotient plus remainder; the remainder is smaller than the divisor and, when nonzero, has the dividend's sign; the quotient's magnitude is the floored quotient of the magnitudes |
| Values.FMod | lispy.c:354 | `fmod`: the result is smaller than the divisor in magnitude and, unless zero, has the sign of the dividend |
| Text.Contains | lispy.c:373 | `strstr(hay, needle) != NULL`: the empty needle is always found, and a needle longer than the haystack never is; `Text.Present` and `Text.Found` together make it hold exactly when the needle occurs at some position |
| Text.NotContains | lispy.c:373 | `strstr` finds no needle holding a character the haystack lacks |
| Text.Present | lispy.c:373 | `strstr` finds a needle that occurs at some position |
| Text.Found | lispy.c:373 | a needle `strstr` finds occurs at some position of the haystack |
| Text.Digits | lispy.c:179 | `%li` writes at least one character, all decimal digits |
| Text.Show | lispy.c:179 | `%li` writes a minus sign exactly for a negative number, and decimal digits after it |
| Text.StrToL | lispy.c:123 | `strtol` in base 10 gives a negative number only when a minus sign follows the leading white space; `Text.StrToLShow` proves it inverts `Show` |
| Text.DigitPrefix | lispy.c:123 | `strtol` reads the longest run of digits: a prefix, all digits, followed by a non-digit or the end |
| Text.StrToLShow | lispy.c:121-125 | `strtol` reads back exactly the number `%li` printed |
| Lists.ListVal.Empty | lispy.c:61-76 | `lval_sexpr`/`lval_qexpr`: a fresh list of the given kind with no children |
| Lists.ListVal.FromValue | lispy.c:11-21 | a list lval opened for editing stands for the value it came from |
| Lists.ListVal.Realloc | lispy.c:107 | `realloc` keeps the children, the count and the kind, with room for `n` cells |
| Lists.ListVal.Add | lispy.c:105-110 | `lval_add`: the children become the old children followed by `x` |
| Lists.ListVal.Push | lispy.c:112-119 | `lval_push` as intended: the children become `x` followed by the old children |
| Lists.ListVal.Pop | lispy.c:190-203 | `lval_pop`: returns child `i`; the children become those before `i` followed by those after it |
| Lists.ListVal.Take | lispy.c:205-209 | `lval_take`: returns child `i`; nothing is left in the container |
| Lists.ListVal.Join | lispy.c:211-221 | `lval_join`: `x` gains all of `y`'s children in order; `y` is left empty |
| Lists.PushOverrun | lispy.c:116 | as written, the `memmove` count exceeds the room after `cell[0]` by `sizeof(lval*) - 1` bytes, for every count |
| Lists.PushOverrunOnEmpty | lispy.c:116 | on a push onto an empty list with 8-byte pointers there is no room, yet 7 bytes are moved |
| Arith.NegateNum | lispy.c:301 | an Integer becomes its opposite and keeps its variant; anything else, a Double included, is returned unchanged |
| Arith.Op | lispy.c:287-364 | `builtin_op` returns a number, "Cannot operate on non-number!" or "Division By Zero!"; `Arith.OpNonNumber`, `OpDivZero`, `OpVariant`, `OpSingle`, `OpFold`, `OpSum`, `OpProduct` and `OpDifference` characterise it |
| Arith.Promote | lispy.c:309-323 | in a mixed pair only the Integer becomes a Double, and the pair then shares one variant; a zero stays a zero |
| Arith.Combine | lispy.c:325-356 | one fold step fails exactly on `/` or `%` by zero, with "Division By Zero!"; otherwise the result keeps the operands' variant |
| Arith.Fold | lispy.c:303-360 | the loop yields a number or "Division By Zero!" |
| Arith.OpNonNumber | lispy.c:289-295 | `builtin_op` gives "Cannot operate on non-number!" exactly when some argument is not a number |
| Arith.OpDivZero | lispy.c:333-354 | `/` and `%` fail exactly when some operand after the first is zero, whatever follows it; with no zero they never fail |
| Arith.FoldDivZero | lispy.c:303-360 | the fold fails exactly when it divides and some remaining operand is zero |
| Arith.FoldVariant | lispy.c:309-323 | the accumulator is a Double exactly when it started as one or some operand is one |
| Arith.OpVariant | lispy.c:287-364 | a successful result is an Integer exactly when every argument is an Integer |
| Arith.OpSingle | lispy.c:298-301 | one operand is returned as it is, except that `-` negates a lone Integer (a Double is unchanged) |
| Arith.OpFold | lispy.c:298-304 | except for a lone operand under `-`, the first argument starts the fold over the rest |
| Arith.FoldAdd | lispy.c:327 | folding `+` over Integers adds their sum |
| Arith.FoldSub | lispy.c:328 | folding `-` over Integers subtracts their sum |
| Arith.FoldMul | lispy.c:329 | folding `*` over Integers multiplies by their product |
| Arith.OpSum | lispy.c:287-364 | `+` on Integers is the sum of all arguments |
| Arith.OpProduct | lispy.c:287-364 | `*` on Integers is the product of all arguments |
| Arith.OpDifference | lispy.c:287-364 | `-` on Integers is the first minus the sum of the rest, or the negation of a lone argument |
| Arith.FoldNoOp | lispy.c:325-356 | a name matching none of the comparisons leaves the first operand as it is, promoted if a Double follows |
| Semantics.List | lispy.c:243-246 | `builtin_list` keeps every node of its arguments; `Laws.ListKeeps` shows it keeps them in order as a Q-expression |
| Semantics.Head | lispy.c:223-231 | `builtin_head` never returns a larger tree than its arguments; `Laws.HeadChecks` gives which input gets which message |
| Semantics.Tail | lispy.c:233-241 | `builtin_tail` never returns a larger tree than its arguments; `Laws.TailChecks` gives which input gets which message |
| Semantics.Join | lispy.c:248-261 | `builtin_join` never returns a larger tree than its arguments |
| Semantics.Cons | lispy.c:275-285 | `builtin_cons` never returns a larger tree than its arguments; `Laws.ConsChecks` gives which input gets which message |
| Semantics.Builtin | lispy.c:366-376 | `builtin` returns no larger tree than its arguments, and never a non-empty S-expression |
| Semantics.BuiltinEval | lispy.c:266-273 | `builtin_eval` returns no larger tree than its arguments, and never a non-empty S-expression; `Laws.EvalChecks` gives its checks |
| Semantics.Eval | lispy.c:409-414 | evaluation never adds nodes and never returns a non-empty S-expression |
| Semantics.EvalSexpr | lispy.c:378-407 | the same bound and reduced form for `lval_eval_sexpr` |
| Semantics.FirstError | lispy.c:386-388 | the index found is that of an error, with no error before it, or the end |
| Semantics.FirstErrorNone | lispy.c:386-388 | without an error the scan runs to the end |
| Semantics.EvalAll | lispy.c:381-383 | evaluating the children keeps their number, reduces each, and adds no nodes |
| Semantics.EvalAllAt | lispy.c:381-383 | each child is evaluated on its own |
| Semantics.SizeFlatten | lispy.c:248-261 | joining drops exactly one node per argument |
| Semantics.FlattenAppend | lispy.c:255-257 | joining two runs of Q-expressions concatenates their joins |
| Semantics.FlattenSnoc | lispy.c:255-257 | one more argument appends its children |
| Interp.Eval | lispy.c:409-414 | `lval_eval` as run computes `Semantics.Eval` |
| Interp.EvalSexpr | lispy.c:378-407 | `lval_eval_sexpr` as run, consuming its list, computes `Semantics.EvalSexpr` |
| Interp.EvalCells | lispy.c:381-383 | the in-place loop leaves the cells equal to the evaluated children |
| Interp.EvalCell | lispy.c:382 | one turn of that loop overwrites cell `i` with its value and leaves every other cell alone |
| Interp.FindError | lispy.c:386-388 | the scanning loop finds the leftmost error |
| Interp.Builtin | lispy.c:366-376 | `builtin` as run computes `Semantics.Builtin` |
| Interp.BuiltinList | lispy.c:243-246 | retagging in place gives the arguments as a Q-expression |
| Interp.BuiltinHead | lispy.c:223-231 | `builtin_head` as run computes `Semantics.Head` |
| Interp.DropAllButFirst | lispy.c:229 | popping cell 1 until one is left leaves only the first child |
| Interp.BuiltinTail | lispy.c:233-241 | `builtin_tail` as run computes `Semantics.Tail` |
| Interp.BuiltinJoin | lispy.c:248-261 | `builtin_join` as run computes `Semantics.Join` |
| Interp.JoinRest | lispy.c:255-257 | the joining loop appends the children of every remaining argument, in order, and empties the argument list |
| Interp.JoinFirst | lispy.c:256 | one turn of the loop: the first argument leaves the list and its children are appended to `x` |
| Interp.JoinValue | lispy.c:211-221 | `lval_join` of a popped list onto `x`: its children are appended in order |
| Interp.AllQexprCells | lispy.c:249-251 | the checking loop says whether every argument is a Q-expression |
| Interp.BuiltinEval | lispy.c:266-273 | `builtin_eval` as run computes `Semantics.BuiltinEval` |
| Interp.BuiltinCons | lispy.c:275-285 | `builtin_cons` as run computes `Semantics.Cons` |
| Interp.BuiltinOp | lispy.c:287-364 | `builtin_op` as run computes `Arith.Op`: the check, the pop of the first argument, the unary minus, then the fold |
| Interp.AllNumberCells | lispy.c:289-295 | the checking loop says whether every argument is a number |
| Interp.FoldRest | lispy.c:303-360 | the popping loop computes `Arith.Fold` of the accumulator over the remaining arguments |
| Interp.OpStep | lispy.c:309-356 | one turn of the loop is a coercion followed by `Arith.Combine` |
| Reader.ReadNum | lispy.c:121-125 | `lval_read_num` gives the `strtol` value when it fits a `long`, and "invalid number" exactly otherwise |
| Reader.ReadDub | lispy.c:127-131 | `lval_read_dub` gives a Double, negative only for a literal with a leading minus |
| Reader.Read | lispy.c:133-157 | `lval_read` gives an atom for an atom tag and a list, with at most one cell per child, otherwise; its only error is "invalid number"; `Reader.ReadSpell` proves it reads back the grammar's tree of a value |
| Reader.ListKindOf | lispy.c:142-144 | the list started is a Q-expression exactly when the tag contains `qexpr` |
| Reader.ReadChildren | lispy.c:147-154 | the first `i` turns of the loop add at most `i` cells |
| Reader.ReadTree | lispy.c:133-157 | `lval_read` as run, adding each child that is not skipped, computes `Reader.Read` |
| Reader.ReadList | lispy.c:140-157 | the list half of `lval_read`: a list of the tag's kind holding the values of the children that are not skipped, in order |
| Reader.ReadChild | lispy.c:147-154 | one turn of the reading loop adds child `i`'s value at the end unless the child is skipped |
| Reader.ReadNumShow | lispy.c:121-125 | a `long` read back from its `%li` text is itself |
| Reader.SpellAllAt | lispy.c:147-154 | the grammar's tree for a list holds the tree of each cell in order |
| Reader.ReadChildrenPrefix | lispy.c:147-154 | after a skipped bracket, the loop reads the inner children in order |
| Reader.ReadSpell | lispy.c:133-157 | reading the tree the grammar builds for a value gives that value back |
| Reader.ReadSpellNum | lispy.c:136 | a number node reads back as its Integer |
| Reader.ReadSpellSym | lispy.c:138 | a symbol node reads back as its Symbol |
| Reader.ReadSpellList | lispy.c:140-154 | an S- or Q-expression node reads back as its list |
| Reader.ReadListNode | lispy.c:140-154 | a list node between two skipped tokens reads as the list of its inner children's values |
| Reader.ReadSpellCells | lispy.c:147-154 | each spelled cell is read back and is not skipped |
| Reader.NotSkipped | lispy.c:148-152 | the node of a spellable value is never skipped |
| Reader.ReadSpellLine | lispy.c:140-154 | a whole input line reads back as the S-expression of its values |
| Reader.NumberTagTests | lispy.c:136-137 | the number rule's tag passes the `number` test and fails the `double` test |
| Reader.SymbolTagTests | lispy.c:136-138 | the symbol rule's tag fails the `number` and `double` tests and passes the `symbol` test |
| Reader.SexprTagTests | lispy.c:136-144 | the S-expression rule's tag fails the three atom tests and the `qexpr` test and passes the `sexpr` test |
| Reader.QexprTagTests | lispy.c:136-144 | the Q-expression rule's tag fails the three atom tests and passes the `qexpr` test |
| Reader.RootTagTests | lispy.c:136-144 | the root tag `>` passes none of the `strstr` tests |
| Reader.SexprTagList | lispy.c:136-144 | the S-expression rule's tag starts an S-expression |
| Reader.QexprTagList | lispy.c:136-144 | the Q-expression rule's tag starts a Q-expression |
| Reader.RootTagList | lispy.c:136-144 | the root's tag `>` starts an S-expression |
| Printer.Spaced | lispy.c:164-173 | the loop writes at least one space between each two cells, and nothing for no cells; `Printer.SpacedSnoc` gives its step |
| Printer.Print | lispy.c:177-186 | `lval_print` encloses an S-expression in `(` `)` and a Q-expression in `{` `}`, and marks an error with `Error: `; `Printer.PrintBalanced` and `Printer.PrintNumReadsBack` characterise the rest |
| Printer.SpacedSnoc | lispy.c:164-173 | one more cell adds a space and its text, unless it is the first |
| Printer.ExprPrint | lispy.c:162-175 | `lval_expr_print` writes the opening character, the cells separated by single spaces, and the closing character |
| Printer.PrintValue | lispy.c:177-186 | `lval_print` as run writes `Printer.Print` |
| Printer.CountAppend | lispy.c:162-175 | character counts add over concatenation |
| Printer.PrintBalanced | lispy.c:177-186 | with bracket-free atoms, the printed text has as many closing as opening brackets of each kind |
| Printer.SpacedBalanced | lispy.c:164-173 | the spaced cells of bracket-free values are balanced |
| Printer.PrintNumReadsBack | lispy.c:179 | the text printed for an Integer reads back through `strtol` as that Integer |
| Laws.EvalSelf | lispy.c:411-413 | every value but an S-expression evaluates to itself |
| Laws.EvalIdempotent | lispy.c:409-414 | evaluating a result again changes nothing |
| Laws.EvalLeftmostError | lispy.c:386-388 | the leftmost child whose value is an error is the result, whatever follows |
| Laws.EvalAllNoError | lispy.c:381-388 | children without errors give evaluated children without errors |
| Laws.EvalNoError | lispy.c:386-388 | with no erroneous child, the scan finds no error |
| Laws.EvalEmpty | lispy.c:391 | `()` evaluates to itself |
| Laws.EvalSingle | lispy.c:394 | a one-child S-expression is that child's value, even a bare symbol |
| Laws.EvalNotSymbol | lispy.c:397-401 | with two or more error-free children, a non-symbol head gives "S-expression Does not start with symbol!" |
| Laws.EvalApply | lispy.c:397-406 | otherwise the named builtin is applied to the other children's values, in order |
| Laws.DispatchUnknown | lispy.c:366-376 | a name that is neither a list function nor a substring of `+-/*%` is "Unknown Function!" |
| Laws.DispatchOperator | lispy.c:373 | the other names that `strstr` lets through go to `builtin_op` |
| Laws.DispatchForeign | lispy.c:373-375 | a name with a character outside `+-/*%` fails the `strstr` test and, unless it is a list function, is "Unknown Function!" |
| Laws.GrammarOnlyOperators | lispy.c:373-375 | `^`, `min` and `max` are "Unknown Function!", so the `pow`, `fmin` and `fmax` branches are dead |
| Laws.DispatchSymbol | lispy.c:373 | a one-character name among `+ - / * %` passes the `strstr` test and goes to `builtin_op` |
| Laws.OperatorsDispatch | lispy.c:373 | each of `+ - / * %` passes the `strstr` test |
| Laws.HeadChecks | lispy.c:224-226 | `head` gives the count message exactly for other than one argument, the type message exactly for one non-Q-expression, the `{}` message exactly for `{}`, and otherwise the first child alone |
| Laws.TailChecks | lispy.c:234-236 | `tail` gives the count, type and `{}` messages for exactly the same inputs, and otherwise drops the first child |
| Laws.ConsChecks | lispy.c:276-277 | `cons` gives the count message exactly for other than two arguments, the type message exactly when the second is not a Q-expression, and otherwise prepends the first |
| Laws.EvalChecks | lispy.c:267-268 | `eval` gives the count message for other than one argument and the type message for one non-Q-expression; otherwise it evaluates the children as an S-expression |
| Laws.HeadTailChecks | lispy.c:223-241 | `head` and `tail` reject the same arguments, and their count and type messages come from the same inputs |
| Laws.ConsHeadTail | lispy.c:275-285 | consing the head's element onto the tail rebuilds a non-empty Q-expression |
| Laws.JoinHeadTail | lispy.c:223-261 | joining the head and the tail rebuilds a non-empty Q-expression |
| Laws.ConsThenHeadTail | lispy.c:275-285 | `cons` prepends, and `head` and `tail` take the element back off |
| Laws.JoinTwo | lispy.c:248-261 | `join` of two Q-expressions concatenates their children |
| Laws.JoinTypeError | lispy.c:249-251 | one non-Q-expression argument, anywhere, gives the `join` type error |
| Laws.JoinRegroup | lispy.c:248-261 | joining in two steps is joining at once |
| Laws.EvalOfList | lispy.c:266-273 | `eval` of a `list` evaluates the arguments as an S-expression |
| Laws.ListKeeps | lispy.c:243-246 | `list` keeps its arguments in order as a Q-expression, which evaluates to itself |
| Laws.EvalHeadOfList | lispy.c:266-273 | `eval` of the `head` of a list is `eval` of the one-element list, which is the first element's value |
| Scenarios.EvalAllValues | lispy.c:381-383 | children that are already values are left as they are |
| Scenarios.EvalFlat | lispy.c:378-407 | a flat application of a named builtin to plain values calls it on them |
| Scenarios.AddMixed | lispy.c:309-323 | `(+ 1 2.5)` is `3.5` |
| Scenarios.RemainderNegative | lispy.c:337-340 | `(% -7 2)` is `-1` |
| Scenarios.DivideByZero | lispy.c:333-336 | `(/ 10 0 5)` is "Division By Zero!" |
| Scenarios.UnaryMinus | lispy.c:301 | `(- 5)` is `-5`, but `(- 2.5)` is `2.5` |
| Scenarios.LoneSymbol | lispy.c:394 | `(+)` is the symbol `+` |
| Scenarios.Power | lispy.c:373-375 | `(^ 2 3)` is "Unknown Function!" |
| Scenarios.NumberAtHead | lispy.c:397-401 | `(1 2)` is the not-a-symbol error |
| Scenarios.HeadOfEmpty | lispy.c:226 | `(head {})` is "Function 'head' passed {}!" |
| Scenarios.ConsOne | lispy.c:275-285 | `(cons 1 {2 3})` is `{1 2 3}` |
| Scenarios.JoinLists | lispy.c:248-261 | `(join {1} {2 3})` is `{1 2 3}` |
| Scenarios.EvalQuote | lispy.c:266-273 | `eval` of a quoted list, whatever it holds, is the value of its cells as an S-expression |
| Scenarios.AddSmall | lispy.c:309-323 | `(+ 1 2)` is `3` |
| Scenarios.EvalQuoted | lispy.c:266-273 | `(eval {+ 1 2})` is `3` |
| Scenarios.HeadOfOperators | lispy.c:223-231 | `(head {+ - + - *})` is `{+}` |
| Scenarios.EvalOfLoneSymbol | lispy.c:266-273 | `eval` of a one-symbol Q-expression is that symbol |
| Scenarios.EvalHeadOfOperators | lispy.c:378-407 | `(eval (head {+ - + - *}))` is the symbol `+` |
| Scenarios.ListOfNumbers | lispy.c:243-246 | `(list 1 2 3)` is `{1 2 3}` |
| Scenarios.NestedEvalCount | lispy.c:266-273 | `(eval {eval 1 2})` is the inner `eval`'s count message, though the outer one is passed a single Q-expression |

## Left out

- `main`: the REPL, `readline`/history, the `mpc` grammar and parser, and the output stream are not modelled. The reader starts from a syntax tree (`Reader.Node`). The printer returns the text it would write.
- `lval_del`, `free`, `malloc` and the ownership transfers are not modelled: children are immutable values, so nothing is leaked or freed twice.
- Lists.ListVal.Pop: the shrinking `realloc` after a pop is left out, because the cell array only keeps unused slots and the contents are the same.
- Lists.ListVal.Push: models the intended prepend, not the `memmove` as written (see Findings).
- Integer width: `long` is an unbounded integer, so the arithmetic does not model overflow of `+`, `-`, `*`, of negating `LONG_MIN`, or of `/` and `%` of `LONG_MIN` by `-1` (undefined in C; the model gives `9223372036854775808` and `0`). The reader does bound integer literals to the `long` range.
- Floating point: a Double is an exact real. IEEE rounding, infinities and NaN are not modelled, and `fmod` is computed exactly.
- Reader.ReadDub: never returns "invalid number", because `strtod`'s `ERANGE` comes from floating-point limits, which are not modelled.
- Printer.Print: the `%g` rendering of a Double is a parameter (`showDub`), not a definition.
- Reader.ReadSpell: the read-back of a printed value is proved from the grammar's tree, not from text: parsing is not modelled, and Doubles are excluded because their text is a parameter.
- Reader.Read: requires every node it reads to be an atom or a list (`Readable`). A tag that is neither would make `lval_read` add a null pointer, and the grammar never produces one.
- Arith.Op: the "Unable to coerce!" branch is not modelled, because every operand is a number by then and it cannot be reached. Neither are the `pow`, `fmin` and `fmax` branches, which the dispatch never reaches (`Laws.GrammarOnlyOperators`).
- Laws.EvalChecks: states that the argument checks give `eval`'s messages, not the converse, because a nested `eval` can return the same messages (`Scenarios.NestedEvalCount`).
- Semantics.Builtin: requires at least one argument. `lval_eval_sexpr` only calls `builtin` with at least one, and `builtin_op` would read past an empty cell array.

## Findings

| source | as written | input that shows it | evidently intended | confidence | as-written member | corrected member |
|---|---|---|---|---|---|---|
| lispy.c:116 | `memmove(&v->cell[1], &v->cell[0], sizeof(lval*) * v->count-1)` moves `8 * count - 1` bytes. With `count` already incremented, only `8 * (count - 1)` bytes fit after `cell[0]`, so the move writes 7 bytes past the array | `cons 1 {}`: the push onto the empty list has 0 bytes of room and moves 7 | `sizeof(lval*) * (v->count-1)`: shift the old children up by one slot, then store `x` in slot 0 | high; not executed | Lists.PushOverrun, Lists.PushOverrunOnEmpty | Lists.ListVal.Push |

=== FILE: arith.dfy ===
/** `builtin_op`: the numeric check, unary minus, and the left fold with
    Integer-to-Double promotion and the division-by-zero exit. */
module Arith {
  import opened Values

  predicate AllNumbers(args: seq<Value>) {
    forall i :: 0 <= i < |args| ==> IsNumber(args[i])
  }

  /** Zero as the division checks see it: `y->num == 0` or `y->dub == 0.0`. */
  predicate IsZero(v: Value) {
    (v.Num? && v.n == 0) || (v.Dub? && v.d == 0.0)
  }

  predicate SameVariant(x: Value, y: Value) {
    (x.Num? && y.Num?) || (x.Dub? && y.Dub?)
  }

  /** The coercion step of the fold: in a mixed pair the Integer side becomes a
      Double; a Double is never converted. */
  function Promote(x: Value, y: Value): (p: (Value, Value))
    requires IsNumber(x) && IsNumber(y)
    ensures SameVariant(p.0, p.1)
    ensures p.0.Dub? <==> x.Dub? || y.Dub?
    ensures x.Dub? ==> p.0 == x
    ensures y.Dub? ==> p.1 == y
    ensures x.Num? && y.Dub? ==> p.0 == Dub(x.n as real)
    ensures x.Dub? && y.Num? ==> p.1 == Dub(y.n as real)
    ensures SameVariant(x, y) ==> p == (x, y)
    ensures IsZero(p.1) <==> IsZero(y)
  {
    if x.Num? && y.Dub? then (Dub(x.n as real), y)
    else if x.Dub? && y.Num? then (x, Dub(y.n as real))
    else (x, y)
  }

  /** One step of the fold on two operands of the same variant. An operator
      that none of the comparisons matches leaves the accumulator as it is. */
  function Combine(op: string, x: Value, y: Value): (r: Value)
    requires SameVariant(x, y)
    ensures r.Err? <==> (op == "/" || op == "%") && IsZero(y)
    ensures r.Err? ==> r == Err(DivZero)
    ensures !r.Err? ==> SameVariant(r, x)
  {
    if x.Num? then
      if op == "+" then Num(x.n + y.n)
      else if op == "-" then Num(x.n - y.n)
      else if op == "*" then Num(x.n * y.n)
      else if op == "/" then (if y.n == 0 then Err(DivZero) else Num(TruncDiv(x.n, y.n)))
      else if op == "%" then (if y.n == 0 then Err(DivZero) else Num(TruncMod(x.n, y.n)))
      else x
    else
      if op == "+" then Dub(x.d + y.d)
      else if op == "-" then Dub(x.d - y.d)
      else if op == "*" then Dub(x.d * y.d)
      else if op == "/" then (if y.d == 0.0 then Err(DivZero) else Dub(x.d / y.d))
      else if op == "%" then (if y.d == 0.0 then Err(DivZero) else Dub(FMod(x.d, y.d)))
      else x
  }

  /** The `while (a->count > 0)` loop: fold the operands into the accumulator,
      stopping at the first division by zero. */
  function Fold(op: string, x: Value, ys: seq<Value>): (r: Value)
    requires IsNumber(x) && AllNumbers(ys)
    ensures IsNumber(r) || r == Err(DivZero)
    decreases |ys|
  {
    if ys == [] then x
    else
      var p := Promote(x, ys[0]);
      var z := Combine(op, p.0, p.1);
      if z.Err? then z else Fold(op, z, ys[1..])
  }

  /** `x->num = -x->num`: an Integer becomes its opposite; a Double keeps its
      `dub` field, so it comes back unchanged. */
  function NegateNum(x: Value): (r: Value)
    ensures r.Num? <==> x.Num?
    ensures x.Num? ==> r.n + x.n == 0
    ensures !x.Num? ==> r == x
  {
    if x.Num? then Num(-x.n) else x
  }

  /** `builtin_op(a, op)` for a non-empty argument list: a number, or one of
      its two messages. */
  function Op(args: seq<Value>, op: string): (r: Value)
    requires |args| >= 1
    ensures IsNumber(r) || r == Err(NonNumber) || r == Err(DivZero)
  {
    if !AllNumbers(args) then Err(NonNumber)
    else
      var x := if op == "-" && |args| == 1 then NegateNum(args[0]) else args[0];
      Fold(op, x, args[1..])
  }

  /** The non-number check runs before any folding, and only it produces its message. */
  lemma OpNonNumber(args: seq<Value>, op: string)
    requires |args| >= 1
    ensures Op(args, op) == Err(NonNumber) <==> !AllNumbers(args)
  {
    if AllNumbers(args) {
      assert |DivZero| != |NonNumber|;
    }
  }

  /** The fold fails exactly when the operator divides and some operand is zero. */
  lemma {:induction false} FoldDivZero(op: string, x: Value, ys: seq<Value>)
    requires IsNumber(x) && AllNumbers(ys)
    ensures Fold(op, x, ys).Err? <==>
      (op == "/" || op == "%") && exists j :: 0 <= j < |ys| && IsZero(ys[j])
    decreases |ys|
  {
    if ys != [] {
      var p := Promote(x, ys[0]);
      var z := Combine(op, p.0, p.1);
      if !z.Err? {
        FoldDivZero(op, z, ys[1..]);
        if exists j :: 0 <= j < |ys| && IsZero(ys[j]) {
          var j :| 0 <= j < |ys| && IsZero(ys[j]);
          if op == "/" || op == "%" {
            assert j != 0;
            assert IsZero(ys[1..][j - 1]);
          }
        }
        if exists j :: 0 <= j < |ys[1..]| && IsZero(ys[1..][j]) {
          var j :| 0 <= j < |ys[1..]| && IsZero(ys[1..][j]);
          assert IsZero(ys[j + 1]);
        }
      }
    }
  }

  /** `/` and `%` with a zero right operand anywhere yield "Division By Zero!",
      whatever follows it; with no zero operand they never fail. */
  lemma OpDivZero(args: seq<Value>, op: string)
    requires |args| >= 1 && AllNumbers(args)
    ensures Op(args, op) == Err(DivZero) <==>
      (op == "/" || op == "%") && exists j :: 1 <= j < |args| && IsZero(args[j])
  {
    var x := if op == "-" && |args| == 1 then NegateNum(args[0]) else args[0];
    FoldDivZero(op, x, args[1..]);
    if exists j :: 1 <= j < |args| && IsZero(args[j]) {
      var j :| 1 <= j < |args| && IsZero(args[j]);
      assert IsZero(args[1..][j - 1]);
    }
    if exists j :: 0 <= j < |args[1..]| && IsZero(args[1..][j]) {
      var j :| 0 <= j < |args[1..]| && IsZero(args[1..][j]);
      assert IsZero(args[j + 1]);
    }
  }

  /** The accumulator becomes a Double once a Double operand is met, and stays an Integer otherwise. */
  lemma {:induction false} FoldVariant(op: string, x: Value, ys: seq<Value>)
    requires IsNumber(x) && AllNumbers(ys)
    requires !Fold(op, x, ys).Err?
    ensures Fold(op, x, ys).Dub? <==> x.Dub? || exists j :: 0 <= j < |ys| && ys[j].Dub?
    decreases |ys|
  {
    if ys != [] {
      var p := Promote(x, ys[0]);
      var z := Combine(op, p.0, p.1);
      FoldVariant(op, z, ys[1..]);
      if exists j :: 0 <= j < |ys[1..]| && ys[1..][j].Dub? {
        var j :| 0 <= j < |ys[1..]| && ys[1..][j].Dub?;
        assert ys[j + 1].Dub?;
      }
      if exists j :: 1 <= j < |ys| && ys[j].Dub? {
        var j :| 1 <= j < |ys| && ys[j].Dub?;
        assert ys[1..][j - 1].Dub?;
      }
    }
  }

  /** The result of a successful operation is an Integer exactly when every operand is an Integer. */
  lemma OpVariant(args: seq<Value>, op: string)
    requires |args| >= 1 && AllNumbers(args)
    requires !Op(args, op).Err?
    ensures Op(args, op).Num? <==> forall j :: 0 <= j < |args| ==> args[j].Num?
  {
    var x := if op == "-" && |args| == 1 then NegateNum(args[0]) else args[0];
    FoldVariant(op, x, args[1..]);
    if exists j :: 0 <= j < |args| && args[j].Dub? {
      var j :| 0 <= j < |args| && args[j].Dub?;
      if j > 0 {
        assert args[1..][j - 1].Dub?;
      }
    }
    if exists j :: 0 <= j < |args[1..]| && args[1..][j].Dub? {
      var j :| 0 <= j < |args[1..]| && args[1..][j].Dub?;
      assert args[j + 1].Dub?;
    }
  }

  /** A lone operand comes back as it is, except that `-` negates a lone Integer. */
  lemma OpSingle(x: Value, op: string)
    requires IsNumber(x)
    ensures Op([x], op) == if op == "-" then NegateNum(x) else x
  {
  }

  predicate AllIntegers(ys: seq<Value>) {
    forall i :: 0 <= i < |ys| ==> ys[i].Num?
  }

  function Sum(ys: seq<Value>): int
    requires AllIntegers(ys)
  {
    if ys == [] then 0 else ys[0].n + Sum(ys[1..])
  }

  function Product(ys: seq<Value>): int
    requires AllIntegers(ys)
  {
    if ys == [] then 1 else ys[0].n * Product(ys[1..])
  }

  lemma {:induction false} FoldAdd(x: int, ys: seq<Value>)
    requires AllIntegers(ys)
    ensures Fold("+", Num(x), ys) == Num(x + Sum(ys))
    decreases |ys|
  {
    if ys != [] {
      FoldAdd(x + ys[0].n, ys[1..]);
    }
  }

  lemma {:induction false} FoldSub(x: int, ys: seq<Value>)
    requires AllIntegers(ys)
    ensures Fold("-", Num(x), ys) == Num(x - Sum(ys))
    decreases |ys|
  {
    if ys != [] {
      FoldSub(x - ys[0].n, ys[1..]);
    }
  }

  lemma {:induction false} FoldMul(x: int, ys: seq<Value>)
    requires AllIntegers(ys)
    ensures Fold("*", Num(x), ys) == Num(x * Product(ys))
    decreases |ys|
  {
    if ys != [] {
      FoldMul(x * ys[0].n, ys[1..]);
      assert x * ys[0].n * Product(ys[1..]) == x * (ys[0].n * Product(ys[1..]));
    }
  }

  /** Unless it is a lone operand under `-`, the first operand is the start of the fold. */
  lemma OpFold(args: seq<Value>, op: string)
    requires |args| >= 1 && AllNumbers(args)
    requires op != "-" || |args| > 1
    ensures Op(args, op) == Fold(op, args[0], args[1..])
  {
  }

  /** On Integers, outside unary minus, the fold starts from the first operand's value. */
  lemma OpIntegers(args: seq<Value>, op: string)
    requires |args| >= 1 && AllIntegers(args) && op != "-"
    ensures Op(args, op) == Fold(op, Num(args[0].n), args[1..])
  {
    assert AllNumbers(args);
    assert args[0] == Num(args[0].n);
    OpFold(args, op);
  }

  /** One unfolding of `Sum`: the first operand plus the sum of the rest. */
  lemma SumStep(args: seq<Value>)
    requires |args| >= 1 && AllIntegers(args)
    ensures AllIntegers(args[1..]) && Sum(args) == args[0].n + Sum(args[1..])
  {
  }

  /** One unfolding of `Product`: the first operand times the product of the rest. */
  lemma ProductStep(args: seq<Value>)
    requires |args| >= 1 && AllIntegers(args)
    ensures AllIntegers(args[1..]) && Product(args) == args[0].n * Product(args[1..])
  {
  }

  /** On Integers `+` is the sum of all operands. */
  lemma OpSum(args: seq<Value>)
    requires |args| >= 1 && AllIntegers(args)
    ensures Op(args, "+") == Num(Sum(args))
  {
    SumStep(args);
    OpIntegers(args, "+");
    FoldAdd(args[0].n, args[1..]);
  }

  /** On Integers `*` is the product of all operands. */
  lemma OpProduct(args: seq<Value>)
    requires |args| >= 1 && AllIntegers(args)
    ensures Op(args, "*") == Num(Product(args))
  {
    ProductStep(args);
    OpIntegers(args, "*");
    FoldMul(args[0].n, args[1..]);
  }

  /** On Integers `-` subtracts every later operand from the first, or negates a lone one. */
  lemma OpDifference(args: seq<Value>)
    requires |args| >= 1 && AllIntegers(args)
    ensures Op(args, "-") == if |args| == 1 then Num(-args[0].n) else Num(args[0].n - Sum(args[1..]))
  {
    assert AllNumbers(args);
    if |args| > 1 {
      OpFold(args, "-");
      FoldSub(args[0].n, args[1..]);
      assert args[0] == Num(args[0].n);
    }
  }

  /** An operator that matches none of the five comparisons only promotes: the
      result is the first operand, as a Double if any later operand is one. */
  lemma {:induction false} FoldNoOp(op: string, x: Value, ys: seq<Value>)
    requires op != "+" && op != "-" && op != "*" && op != "/" && op != "%"
    requires IsNumber(x) && AllNumbers(ys)
    ensures Fold(op, x, ys) ==
      if x.Num? && exists j :: 0 <= j < |ys| && ys[j].Dub? then Dub(x.n as real) else x
    decreases |ys|
  {
    if ys != [] {
      var p := Promote(x, ys[0]);
      FoldNoOp(op, p.0, ys[1..]);
      if exists j :: 0 <= j < |ys[1..]| && ys[1..][j].Dub? {
        var j :| 0 <= j < |ys[1..]| && ys[1..][j].Dub?;
        assert ys[j + 1].Dub?;
      }
      if exists j :: 1 <= j < |ys| && ys[j].Dub? {
        var j :| 1 <= j < |ys| && ys[j].Dub?;
        assert ys[1..][j - 1].Dub?;
      }
    }
  }
}

=== FILE: interp.dfy ===
/** The evaluator as the source runs it: each builtin consumes its argument
    list in place, popping, taking and joining cells; `lval_eval_sexpr`
    overwrites each cell with its value. Every method is proved to compute
    the function of `Semantics` it is named after. */
module Interp {
  import opened Values
  import opened Lists
  import opened Text
  import Arith
  import Semantics

  /** `lval_eval`. */
  method Eval(v: Value) returns (r: Value)
    ensures r == Semantics.Eval(v)
    decreases Size(v), 3
  {
    if v.Sexpr? {
      var l := new ListVal.FromValue(v);
      r := EvalSexpr(l);
    } else {
      r := v;
    }
  }

  /** `lval_eval_sexpr(v)`: consumes the SExpr `v`. */
  method EvalSexpr(v: ListVal) returns (r: Value)
    requires v.Valid() && v.kind == SexprKind
    modifies v.Repr
    ensures r == Semantics.EvalSexpr(old(v.Contents()))
    decreases 1 + SizeSeq(v.Contents()), 2
  {
    ghost var cs := v.Contents();
    EvalCells(v);
    ghost var es := v.Contents();
    var k := FindError(v);
    if k < v.count {
      r := v.Take(k);
      return;
    }
    if v.count == 0 {
      r := v.AsValue();
      return;
    }
    if v.count == 1 {
      r := v.Take(0);
      return;
    }
    var f := v.Pop(0);
    if !f.Sym? {
      r := Err(NoSymbolHead);
      return;
    }
    assert v.Contents() == es[1..];
    assert SizeSeq(es) == Size(es[0]) + SizeSeq(es[1..]);
    r := Builtin(v, f.name);
  }

  /** The first loop of `lval_eval_sexpr`: every cell is overwritten with its value, left to right. */
  method EvalCells(v: ListVal)
    requires v.Valid()
    modifies v.Repr
    ensures v.Valid() && v.Repr == old(v.Repr) && v.kind == old(v.kind)
    ensures v.Contents() == Semantics.EvalAll(old(v.Contents()))
    decreases 1 + SizeSeq(v.Contents()), 1
  {
    ghost var cs := v.Contents();
    ghost var es := Semantics.EvalAll(cs);
    var i := 0;
    while i < v.count
      invariant v.Valid() && v.Repr == old(v.Repr) && v.kind == old(v.kind)
      invariant v.count == |cs| && 0 <= i <= |cs|
      invariant forall j :: 0 <= j < i ==> v.cell[j] == es[j]
      invariant forall j :: i <= j < |cs| ==> v.cell[j] == cs[j]
    {
      EvalCell(v, i, cs);
      i := i + 1;
    }
    assert v.Contents() == es;
  }

  /** One turn of that loop: `v->cell[i] = lval_eval(v->cell[i])`. */
  method EvalCell(v: ListVal, i: nat, ghost cs: seq<Value>)
    requires v.Valid() && i < v.count == |cs| && v.cell[i] == cs[i]
    modifies v.cell
    ensures v.cell[i] == Semantics.EvalAll(cs)[i]
    ensures forall j :: 0 <= j < v.cell.Length && j != i ==> v.cell[j] == old(v.cell[j])
    decreases 1 + SizeSeq(cs), 0
  {
    SizeSeqElement(cs, i);
    Semantics.EvalAllAt(cs, i);
    var e := Eval(v.cell[i]);
    v.cell[i] := e;
  }

  /** The second loop of `lval_eval_sexpr`: the index of the leftmost error cell, or `count` if none. */
  method FindError(v: ListVal) returns (k: nat)
    requires v.Valid()
    ensures k == Semantics.FirstError(v.Contents())
  {
    k := 0;
    while k < v.count && !v.cell[k].Err?
      invariant 0 <= k <= v.count
      invariant forall j :: 0 <= j < k ==> !v.cell[j].Err?
    {
      k := k + 1;
    }
  }

  /** `builtin(a, func)`: dispatch on the name. */
  method Builtin(a: ListVal, func: string) returns (r: Value)
    requires a.Valid() && a.count >= 1
    modifies a.Repr
    ensures r == Semantics.Builtin(old(a.Contents()), func)
    decreases 1 + SizeSeq(a.Contents()), 1
  {
    if func == "list" {
      r := BuiltinList(a);
    } else if func == "head" {
      r := BuiltinHead(a);
    } else if func == "tail" {
      r := BuiltinTail(a);
    } else if func == "join" {
      r := BuiltinJoin(a);
    } else if func == "eval" {
      r := BuiltinEval(a);
    } else if func == "cons" {
      r := BuiltinCons(a);
    } else if Contains("+-/*%", func) {
      r := BuiltinOp(a, func);
    } else {
      r := Err(UnknownFunction);
    }
  }

  /** `builtin_list`: the argument list itself, retagged. */
  method BuiltinList(a: ListVal) returns (r: Value)
    requires a.Valid()
    modifies a
    ensures r == Semantics.List(old(a.Contents()))
  {
    a.kind := QexprKind;
    r := a.AsValue();
  }

  /** `builtin_head`: takes the Q-expression and pops its second cell until one is left. */
  method BuiltinHead(a: ListVal) returns (r: Value)
    requires a.Valid()
    modifies a.Repr
    ensures r == Semantics.Head(old(a.Contents()))
  {
    if a.count != 1 {
      return Err(HeadCount);
    }
    if !a.cell[0].Qexpr? {
      return Err(HeadType);
    }
    if a.cell[0].cells == [] {
      return Err(HeadEmpty);
    }
    var x := a.Take(0);
    var v := new ListVal.FromValue(x);
    DropAllButFirst(v);
    r := v.AsValue();
  }

  /** The loop of `builtin_head`: pop the second cell until only the first is left. */
  method DropAllButFirst(v: ListVal)
    requires v.Valid() && v.count >= 1
    modifies v.Repr
    ensures v.Valid() && v.Repr == old(v.Repr) && v.kind == old(v.kind)
    ensures v.Contents() == [old(v.Contents())[0]]
  {
    ghost var c := v.Contents();
    while v.count > 1
      invariant v.Valid() && v.Repr == old(v.Repr) && v.kind == old(v.kind)
      invariant 1 <= v.count <= |c|
      invariant v.Contents() == [c[0]] + c[|c| - v.count + 1..]
      decreases v.count
    {
      var dropped := v.Pop(1);
    }
  }

  /** `builtin_tail`: takes the Q-expression and pops its first cell. */
  method BuiltinTail(a: ListVal) returns (r: Value)
    requires a.Valid()
    modifies a.Repr
    ensures r == Semantics.Tail(old(a.Contents()))
  {
    if a.count != 1 {
      return Err(TailCount);
    }
    if !a.cell[0].Qexpr? {
      return Err(TailType);
    }
    if a.cell[0].cells == [] {
      return Err(TailEmpty);
    }
    var x := a.Take(0);
    var v := new ListVal.FromValue(x);
    var dropped := v.Pop(0);
    r := v.AsValue();
  }

  /** `builtin_join`: checks every argument, then pops them one by one and joins each into the first. */
  method BuiltinJoin(a: ListVal) returns (r: Value)
    requires a.Valid() && a.count >= 1
    modifies a.Repr
    ensures r == Semantics.Join(old(a.Contents()))
  {
    var ok := AllQexprCells(a);
    if !ok {
      return Err(JoinType);
    }
    ghost var qs := a.Contents();
    var first := a.Pop(0);
    var x := new ListVal.FromValue(first);
    assert a.Contents() == qs[1..] && x.Contents() == first.cells;
    assert Semantics.Flatten(qs) == first.cells + Semantics.Flatten(qs[1..]);
    JoinRest(x, a);
    r := x.AsValue();
  }

  /** The joining loop of `builtin_join`: pops each remaining argument and joins its children onto `x`. */
  method JoinRest(x: ListVal, a: ListVal)
    requires x.Valid() && a.Valid() && x.Repr !! a.Repr
    requires Semantics.AllQexpr(a.Contents())
    modifies x.Repr, a.Repr
    ensures x.Valid() && fresh(x.Repr - old(x.Repr)) && x.kind == old(x.kind)
    ensures a.Valid() && a.Repr == old(a.Repr) && a.Contents() == []
    ensures x.Contents() == old(x.Contents()) + Semantics.Flatten(old(a.Contents()))
  {
    ghost var qs, xs := a.Contents(), x.Contents();
    ghost var k := 0;
    while a.count > 0
      invariant a.Valid() && a.Repr == old(a.Repr)
      invariant x.Valid() && fresh(x.Repr - old(x.Repr)) && x.kind == old(x.kind)
      invariant x.Repr !! a.Repr
      invariant 0 <= k <= |qs| && a.Contents() == qs[k..]
      invariant x.Contents() == xs + Semantics.Flatten(qs[..k])
      decreases a.count
    {
      ghost var before, rest := x.Contents(), a.Contents();
      JoinFirst(x, a);
      PopStep(qs, k, rest, a.Contents());
      JoinStep(qs, xs, k, before, x.Contents());
      k := k + 1;
    }
    assert qs[..k] == qs;
  }

  /** One turn of the joining loop, `x = lval_join(x, lval_pop(a, 0))`: the first
      argument leaves `a` and its children are appended to `x`. */
  method JoinFirst(x: ListVal, a: ListVal)
    requires x.Valid() && a.Valid() && x.Repr !! a.Repr
    requires a.count > 0 && a.Contents()[0].Qexpr?
    modifies x.Repr, a.Repr
    ensures x.Valid() && fresh(x.Repr - old(x.Repr)) && x.kind == old(x.kind)
    ensures a.Valid() && a.Repr == old(a.Repr) && x.Repr !! a.Repr
    ensures a.Contents() == old(a.Contents())[1..]
    ensures x.Contents() == old(x.Contents()) + old(a.Contents())[0].cells
  {
    var next := a.Pop(0);
    JoinValue(x, next);
  }

  /** `lval_join(x, y)` with `y` a list just popped: its children move to the end of `x`. */
  method JoinValue(x: ListVal, y: Value)
    requires x.Valid() && (y.Sexpr? || y.Qexpr?)
    modifies x.Repr
    ensures x.Valid() && fresh(x.Repr - old(x.Repr)) && x.kind == old(x.kind)
    ensures x.Contents() == old(x.Contents()) + y.cells
  {
    var l := new ListVal.FromValue(y);
    x.Join(l);
  }

  /** Popping the first of the arguments left from `k` on leaves those from `k + 1` on. */
  lemma PopStep(qs: seq<Value>, k: nat, before: seq<Value>, after: seq<Value>)
    requires k < |qs| && before == qs[k..] && after == before[1..]
    ensures before[0] == qs[k] && after == qs[k + 1..]
  {
  }

  /** The children joined so far, followed by those of argument `k`, are those of the first `k + 1` arguments. */
  lemma JoinStep(qs: seq<Value>, xs: seq<Value>, k: nat, before: seq<Value>, after: seq<Value>)
    requires Semantics.AllQexpr(qs) && k < |qs|
    requires before == xs + Semantics.Flatten(qs[..k]) && after == before + qs[k].cells
    ensures after == xs + Semantics.Flatten(qs[..k + 1])
  {
    Semantics.FlattenSnoc(qs, k);
  }

  /** The checking loop of `builtin_join`: whether every argument is a Q-expression. */
  method AllQexprCells(a: ListVal) returns (ok: bool)
    requires a.Valid()
    ensures ok == Semantics.AllQexpr(a.Contents())
  {
    var i := 0;
    while i < a.count
      invariant 0 <= i <= a.count
      invariant forall j :: 0 <= j < i ==> a.cell[j].Qexpr?
    {
      if !a.cell[i].Qexpr? {
        return false;
      }
      i := i + 1;
    }
    return true;
  }

  /** `builtin_eval`: takes the Q-expression, retags it as an SExpr and evaluates it. */
  method BuiltinEval(a: ListVal) returns (r: Value)
    requires a.Valid()
    modifies a.Repr
    ensures r == Semantics.BuiltinEval(old(a.Contents()))
    decreases 1 + SizeSeq(a.Contents()), 0
  {
    if a.count != 1 {
      return Err(EvalCount);
    }
    if !a.cell[0].Qexpr? {
      return Err(EvalType);
    }
    ghost var args := a.Contents();
    assert SizeSeq(args) == Size(args[0]) + SizeSeq(args[1..]);
    var x := a.Take(0);
    r := Eval(Sexpr(x.cells));
  }

  /** `builtin_cons`: pops both arguments and pushes the first onto the Q-expression. */
  method BuiltinCons(a: ListVal) returns (r: Value)
    requires a.Valid()
    modifies a.Repr
    ensures r == Semantics.Cons(old(a.Contents()))
  {
    if a.count != 2 {
      return Err(ConsCount);
    }
    if !a.cell[1].Qexpr? {
      return Err(ConsType);
    }
    var x := a.Pop(0);
    var y := a.Pop(0);
    var v := new ListVal.FromValue(y);
    v.Push(x);
    r := v.AsValue();
  }

  /** `builtin_op(a, op)`: checks every argument is a number, then folds them into the first. */
  method BuiltinOp(a: ListVal, op: string) returns (r: Value)
    requires a.Valid() && a.count >= 1
    modifies a.Repr
    ensures r == Arith.Op(old(a.Contents()), op)
  {
    ghost var args := a.Contents();
    var ok := AllNumberCells(a);
    if !ok {
      return Err(NonNumber);
    }
    var x := a.Pop(0);
    if op == "-" && a.count == 0 {
      x := Arith.NegateNum(x);
    }
    assert a.Contents() == args[1..];
    r := FoldRest(a, op, x);
  }

  /** The checking loop of `builtin_op`: whether every argument is a number. */
  method AllNumberCells(a: ListVal) returns (ok: bool)
    requires a.Valid()
    ensures ok == Arith.AllNumbers(a.Contents())
  {
    var i := 0;
    while i < a.count
      invariant 0 <= i <= a.count
      invariant forall j :: 0 <= j < i ==> IsNumber(a.cell[j])
    {
      if !(a.cell[i].Num? || a.cell[i].Dub?) {
        return false;
      }
      i := i + 1;
    }
    return true;
  }

  /** The folding loop of `builtin_op`: pops each operand into the accumulator until none is left or a division fails. */
  method FoldRest(a: ListVal, op: string, x0: Value) returns (x: Value)
    requires a.Valid() && IsNumber(x0) && Arith.AllNumbers(a.Contents())
    modifies a.Repr
    ensures x == Arith.Fold(op, x0, old(a.Contents()))
  {
    x := x0;
    while a.count > 0
      invariant a.Valid() && a.Repr == old(a.Repr)
      invariant IsNumber(x) && Arith.AllNumbers(a.Contents())
      invariant Arith.Fold(op, x, a.Contents()) == Arith.Fold(op, x0, old(a.Contents()))
      decreases a.count
    {
      ghost var rest := a.Contents();
      var y := a.Pop(0);
      assert y == rest[0] && a.Contents() == rest[1..];
      x := OpStep(op, x, y);
      if x.Err? {
        break;
      }
    }
  }

  /** One turn of the folding loop: coerce a mixed pair, then apply the operator
      whose name `op` equals; `/` and `%` by zero give the error. */
  method OpStep(op: string, x0: Value, y0: Value) returns (x: Value)
    requires IsNumber(x0) && IsNumber(y0)
    ensures x == Arith.Combine(op, Arith.Promote(x0, y0).0, Arith.Promote(x0, y0).1)
  {
    x := x0;
    var y := y0;
    if x.Num? && y.Dub? {
      x := Dub(x.n as real);
    } else if x.Dub? && y.Num? {
      y := Dub(y.n as real);
    }
    if x.Num? {
      if op == "+" { x := Num(x.n + y.n); }
      if op == "-" { x := Num(x.n - y.n); }
      if op == "*" { x := Num(x.n * y.n); }
      if op == "/" {
        if y.n == 0 { return Err(DivZero); }
        x := Num(TruncDiv(x.n, y.n));
      }
      if op == "%" {
        if y.n == 0 { return Err(DivZero); }
        x := Num(TruncMod(x.n, y.n));
      }
    } else {
      if op == "+" { x := Dub(x.d + y.d); }
      if op == "-" { x := Dub(x.d - y.d); }
      if op == "*" { x := Dub(x.d * y.d); }
      if op == "/" {
        if y.d == 0.0 { return Err(DivZero); }
        x := Dub(x.d / y.d);
      }
      if op == "%" {
        if y.d == 0.0 { return Err(DivZero); }
        x := Dub(FMod(x.d, y.d));
      }
    }
  }
}

=== FILE: laws.dfy ===
/** What the evaluator promises, stated over the functions of `Semantics`:
    the rules of `lval_eval_sexpr`, the dispatch of `builtin`, and how the
    list builtins fit together. */
module Laws {
  import opened Values
  import opened Text
  import Arith
  import opened Semantics

  /** Every value that is not an SExpr evaluates to itself. */
  lemma EvalSelf(v: Value)
    requires !v.Sexpr?
    ensures Eval(v) == v
  {
  }

  /** Evaluating an evaluated value changes nothing. */
  lemma EvalIdempotent(v: Value)
    ensures Eval(Eval(v)) == Eval(v)
  {
    var r := Eval(v);
    if r.Sexpr? {
      assert r.cells == [];
      assert EvalAll([]) == [];
    }
  }

  /** The leftmost child whose value is an error decides the result, whatever follows it. */
  lemma EvalLeftmostError(cs: seq<Value>, i: nat)
    requires i < |cs| && Eval(cs[i]).Err?
    requires forall j :: 0 <= j < i ==> !Eval(cs[j]).Err?
    ensures Eval(Sexpr(cs)) == Eval(cs[i])
  {
    var es := EvalAll(cs);
    forall j | 0 <= j <= i
      ensures es[j] == Eval(cs[j])
    {
      EvalAllAt(cs, j);
    }
    var k := FirstError(es);
    assert k == i;
  }

  /** Children without errors give evaluated children without errors. */
  lemma EvalAllNoError(cs: seq<Value>)
    requires forall j :: 0 <= j < |cs| ==> !Eval(cs[j]).Err?
    ensures forall j :: 0 <= j < |cs| ==> !EvalAll(cs)[j].Err?
  {
    var es := EvalAll(cs);
    forall j | 0 <= j < |cs|
      ensures !es[j].Err?
    {
      EvalAllAt(cs, j);
    }
  }

  /** When no child evaluates to an error, the search for the leftmost error finds none. */
  lemma EvalNoError(cs: seq<Value>)
    requires forall j :: 0 <= j < |cs| ==> !Eval(cs[j]).Err?
    ensures FirstError(EvalAll(cs)) == |cs|
  {
    EvalAllNoError(cs);
    FirstErrorNone(EvalAll(cs));
  }

  /** `()` evaluates to itself. */
  lemma EvalEmpty()
    ensures Eval(Sexpr([])) == Sexpr([])
  {
    assert EvalAll([]) == [];
  }

  /** An SExpr with one child is that child's value, a bare symbol included. */
  lemma EvalSingle(c: Value)
    ensures Eval(Sexpr([c])) == Eval(c)
  {
    assert [c][1..] == [];
    assert EvalAll([c]) == [Eval(c)] + EvalAll([]);
  }

  /** With two or more error-free children, a head that is not a symbol is an error. */
  lemma EvalNotSymbol(cs: seq<Value>)
    requires |cs| >= 2 && forall j :: 0 <= j < |cs| ==> !Eval(cs[j]).Err?
    requires !Eval(cs[0]).Sym?
    ensures Eval(Sexpr(cs)) == Err(NoSymbolHead)
  {
    EvalNoError(cs);
    EvalAllAt(cs, 0);
  }

  /** With two or more error-free children and a symbol at the head, the builtin
      it names is applied to the values of the other children, in order. */
  lemma EvalApply(cs: seq<Value>, f: string)
    requires |cs| >= 2 && forall j :: 0 <= j < |cs| ==> !Eval(cs[j]).Err?
    requires Eval(cs[0]) == Sym(f)
    ensures Eval(Sexpr(cs)) == Builtin(EvalAll(cs)[1..], f)
    ensures forall j :: 0 <= j < |cs| - 1 ==> EvalAll(cs)[1..][j] == Eval(cs[j + 1])
  {
    EvalNoError(cs);
    EvalAllAt(cs, 0);
    forall j | 0 <= j < |cs| - 1
      ensures EvalAll(cs)[1..][j] == Eval(cs[j + 1])
    {
      EvalAllAt(cs, j + 1);
    }
  }

  /** A name that is neither a list function nor a substring of the five operator characters is an unknown function. */
  lemma DispatchUnknown(args: seq<Value>, f: string)
    requires |args| >= 1 && !IsListFunction(f) && !IsOperator(f)
    ensures Builtin(args, f) == Err(UnknownFunction)
  {
  }

  /** The names the `strstr` test lets through, besides the list functions, go to the arithmetic. */
  lemma DispatchOperator(args: seq<Value>, f: string)
    requires |args| >= 1 && !IsListFunction(f) && IsOperator(f)
    ensures Builtin(args, f) == Arith.Op(args, f)
  {
  }

  /** A name holding a character that is not one of the five operator characters
      fails the `strstr` test, so, unless it is a list function, it is unknown. */
  lemma DispatchForeign(args: seq<Value>, f: string, k: nat)
    requires |args| >= 1 && !IsListFunction(f)
    requires k < |f| && f[k] != '+' && f[k] != '-' && f[k] != '/' && f[k] != '*' && f[k] != '%'
    ensures !IsOperator(f)
    ensures Builtin(args, f) == Err(UnknownFunction)
  {
    NotContains("+-/*%", f, k);
  }

  /** The grammar's symbols `^`, `min` and `max` are unknown functions: the
      `pow`, `fmin` and `fmax` branches of the arithmetic are never reached. */
  lemma GrammarOnlyOperators(args: seq<Value>)
    requires |args| >= 1
    ensures Builtin(args, "^") == Err(UnknownFunction)
    ensures Builtin(args, "min") == Err(UnknownFunction)
    ensures Builtin(args, "max") == Err(UnknownFunction)
  {
    ShortName("^");
    ShortName("min");
    ShortName("max");
    DispatchForeign(args, "^", 0);
    DispatchForeign(args, "min", 0);
    DispatchForeign(args, "max", 0);
  }

  /** Every list function's name has four letters. */
  lemma ShortName(f: string)
    requires |f| != 4
    ensures !IsListFunction(f)
  {
  }

  /** An operator spelled by one of the five operator characters reaches the arithmetic. */
  lemma DispatchSymbol(args: seq<Value>, f: string, k: nat)
    requires |args| >= 1 && |f| == 1 && k < 5 && f[0] == "+-/*%"[k]
    ensures IsOperator(f)
    ensures Builtin(args, f) == Arith.Op(args, f)
  {
    Present("+-/*%", f, k);
    ShortName(f);
  }

  /** Each of the five operator symbols reaches the arithmetic. */
  lemma OperatorsDispatch()
    ensures IsOperator("+") && IsOperator("-") && IsOperator("/") && IsOperator("*") && IsOperator("%")
  {
    Present("+-/*%", "+", 0);
    Present("+-/*%", "-", 1);
    Present("+-/*%", "/", 2);
    Present("+-/*%", "*", 3);
    Present("+-/*%", "%", 4);
  }

  /** `builtin_head` checks the count, then the type, then emptiness, each
      with its own message, and otherwise keeps the first child alone. */
  lemma HeadChecks(args: seq<Value>)
    ensures Head(args) == Err(HeadCount) <==> |args| != 1
    ensures Head(args) == Err(HeadType) <==> |args| == 1 && !args[0].Qexpr?
    ensures Head(args) == Err(HeadEmpty) <==> args == [Qexpr([])]
    ensures |args| == 1 && args[0].Qexpr? && args[0].cells != [] ==> Head(args) == Qexpr([args[0].cells[0]])
  {
    Distinct3(HeadCount, HeadType, HeadEmpty);
    if |args| == 1 && args[0].Qexpr? && args[0].cells == [] {
      assert args == [Qexpr([])];
    }
  }

  /** `builtin_tail` makes the same three checks in the same order, with its
      own messages, and otherwise drops the first child. */
  lemma TailChecks(args: seq<Value>)
    ensures Tail(args) == Err(TailCount) <==> |args| != 1
    ensures Tail(args) == Err(TailType) <==> |args| == 1 && !args[0].Qexpr?
    ensures Tail(args) == Err(TailEmpty) <==> args == [Qexpr([])]
    ensures |args| == 1 && args[0].Qexpr? && args[0].cells != [] ==> Tail(args) == Qexpr(args[0].cells[1..])
  {
    Distinct3(TailCount, TailType, TailEmpty);
    if |args| == 1 && args[0].Qexpr? && args[0].cells == [] {
      assert args == [Qexpr([])];
    }
  }

  /** `builtin_cons` checks for exactly two arguments, then that the second is
      a Q-expression, and otherwise prepends the first. */
  lemma ConsChecks(args: seq<Value>)
    ensures Cons(args) == Err(ConsCount) <==> |args| != 2
    ensures Cons(args) == Err(ConsType) <==> |args| == 2 && !args[1].Qexpr?
    ensures |args| == 2 && args[1].Qexpr? ==> Cons(args) == Qexpr([args[0]] + args[1].cells)
  {
    assert |ConsCount| != |ConsType|;
  }

  /** `builtin_eval` checks for exactly one argument, then that it is a
      Q-expression, and otherwise evaluates it as an S-expression. Its two
      messages can also come back from a nested `eval` (`Scenarios.NestedEvalCount`),
      so the checks imply the messages but not the converse. */
  lemma EvalChecks(args: seq<Value>)
    ensures |args| != 1 ==> BuiltinEval(args) == Err(EvalCount)
    ensures |args| == 1 && !args[0].Qexpr? ==> BuiltinEval(args) == Err(EvalType)
    ensures |args| == 1 && args[0].Qexpr? ==> BuiltinEval(args) == Eval(Sexpr(args[0].cells))
  {
  }

  lemma Distinct3(a: string, b: string, c: string)
    requires |a| != |b| && |b| != |c| && |a| != |c|
    ensures a != b && b != c && a != c
  {
  }

  /** `head` and `tail` agree on which arguments they reject, each with its own message. */
  lemma HeadTailChecks(args: seq<Value>)
    ensures Head(args).Err? <==> Tail(args).Err?
    ensures Head(args).Err? <==> !(|args| == 1 && args[0].Qexpr? && args[0].cells != [])
    ensures Head(args) == Err(HeadCount) <==> Tail(args) == Err(TailCount)
    ensures Head(args) == Err(HeadType) <==> Tail(args) == Err(TailType)
  {
  }

  /** Consing the head's only child onto the tail rebuilds the Q-expression. */
  lemma ConsHeadTail(q: Value)
    requires q.Qexpr? && q.cells != []
    ensures Cons([Head([q]).cells[0], Tail([q])]) == q
  {
    assert [q.cells[0]] + q.cells[1..] == q.cells;
  }

  /** Joining the head and the tail rebuilds the Q-expression. */
  lemma JoinHeadTail(q: Value)
    requires q.Qexpr? && q.cells != []
    ensures Join([Head([q]), Tail([q])]) == q
  {
    var h, t := Head([q]), Tail([q]);
    assert Flatten([h, t]) == h.cells + Flatten([t]);
    assert Flatten([t]) == t.cells + Flatten([]);
    assert [q.cells[0]] + q.cells[1..] == q.cells;
  }

  /** `cons` puts its first argument in front of the second's children, and takes
      it back off again with `head` and `tail`. */
  lemma ConsThenHeadTail(x: Value, q: Value)
    requires q.Qexpr?
    ensures Cons([x, q]) == Qexpr([x] + q.cells)
    ensures Head([Cons([x, q])]) == Qexpr([x])
    ensures Tail([Cons([x, q])]) == q
  {
    assert ([x] + q.cells)[1..] == q.cells;
  }

  /** `join` of two Q-expressions concatenates their children. */
  lemma JoinTwo(a: seq<Value>, b: seq<Value>)
    ensures Join([Qexpr(a), Qexpr(b)]) == Qexpr(a + b)
  {
    assert Flatten([Qexpr(a), Qexpr(b)]) == a + Flatten([Qexpr(b)]);
    assert Flatten([Qexpr(b)]) == b + Flatten([]);
  }

  /** One argument that is not a Q-expression, anywhere, makes `join` fail with its type message. */
  lemma JoinTypeError(args: seq<Value>, i: nat)
    requires i < |args| && !args[i].Qexpr?
    ensures Join(args) == Err(JoinType)
  {
  }

  /** Joining in two steps is joining at once. */
  lemma JoinRegroup(xs: seq<Value>, ys: seq<Value>)
    requires |xs| >= 1 && |ys| >= 1 && AllQexpr(xs) && AllQexpr(ys)
    ensures Join(xs + ys) == Join([Join(xs), Join(ys)])
  {
    FlattenAppend(xs, ys);
    JoinTwo(Flatten(xs), Flatten(ys));
  }

  /** `eval` of a `list` evaluates the arguments as an SExpr. */
  lemma EvalOfList(args: seq<Value>)
    ensures BuiltinEval([List(args)]) == Eval(Sexpr(args))
  {
  }

  /** `list` keeps its arguments in order and retags them. */
  lemma ListKeeps(args: seq<Value>)
    ensures List(args).Qexpr? && List(args).cells == args
    ensures Eval(List(args)) == List(args)
  {
  }

  /** `eval` of the `head` of a list is the value of its first element, the
      same as `eval` of the one-element list. */
  lemma EvalHeadOfList(xs: seq<Value>)
    requires |xs| >= 1
    ensures BuiltinEval([Head([List(xs)])]) == BuiltinEval([List([xs[0]])])
    ensures BuiltinEval([List([xs[0]])]) == Eval(xs[0])
  {
    EvalSingle(xs[0]);
  }
}

=== FILE: lists.dfy ===
/** A list lval while it is being edited in place: its `type` tag, its
    `count` and its `cell` array, with `lval_add`, `lval_push`, `lval_pop`,
    `lval_take` and `lval_join` as methods. The children are values. */
module Lists {
  import opened Values

  class ListVal {
    var kind: ListKind
    var count: nat
    var cell: array<Value>
    ghost var Repr: set<object>

    ghost predicate Valid()
      reads this, Repr
      ensures Valid() ==> this in Repr
    {
      Repr == {this, cell} && count <= cell.Length
    }

    /** The children, `cell[0 .. count - 1]`. */
    function Contents(): seq<Value>
      reads this, Repr
      requires Valid()
    {
      cell[..count]
    }

    /** The lval this object stands for. */
    function AsValue(): Value
      reads this, Repr
      requires Valid()
    {
      MakeList(kind, Contents())
    }

    /** `lval_sexpr()` / `lval_qexpr()`: a fresh empty list. */
    constructor Empty(k: ListKind)
      ensures Valid() && fresh(Repr)
      ensures kind == k && Contents() == []
    {
      kind, count := k, 0;
      cell := new Value[0];
      Repr := {this, cell};
    }

    /** A list lval taken out of its parent, held as an object so that it can be edited in place. */
    constructor FromValue(v: Value)
      requires v.Sexpr? || v.Qexpr?
      ensures Valid() && fresh(Repr)
      ensures AsValue() == v
    {
      var cs := v.cells;
      kind := if v.Sexpr? then SexprKind else QexprKind;
      count := |cs|;
      cell := new Value[|cs|](i requires 0 <= i < |cs| => cs[i]);
      Repr := {this, cell};
      new;
      assert cell[..count] == cs;
    }

    /** `realloc(cell, n)`: a new array of `n` slots holding the same children. */
    method Realloc(n: nat)
      requires Valid() && count <= n
      modifies Repr
      ensures Valid() && fresh(Repr - old(Repr)) && fresh(cell)
      ensures kind == old(kind) && count == old(count) && cell.Length == n
      ensures Contents() == old(Contents())
    {
      var a := new Value[n];
      forall i | 0 <= i < count {
        a[i] := cell[i];
      }
      cell := a;
      Repr := {this, cell};
    }

    /** `lval_add(v, x)`: `x` becomes the last child. */
    method Add(x: Value)
      requires Valid()
      modifies Repr
      ensures Valid() && fresh(Repr - old(Repr)) && kind == old(kind)
      ensures Contents() == old(Contents()) + [x]
    {
      if count == cell.Length {
        Realloc(count + 1);
      }
      cell[count] := x;
      count := count + 1;
    }

    /** `lval_push(v, x)`: `x` becomes the first child, the others move up by one. */
    method Push(x: Value)
      requires Valid()
      modifies Repr
      ensures Valid() && fresh(Repr - old(Repr)) && kind == old(kind)
      ensures Contents() == [x] + old(Contents())
    {
      if count == cell.Length {
        Realloc(count + 1);
      }
      ghost var c := Contents();
      var a, n := cell, count;
      var i := n;
      while i > 0
        invariant 0 <= i <= n < a.Length
        invariant cell == a && count == n && Repr == {this, a} && kind == old(kind)
        invariant forall j :: 0 <= j < i ==> a[j] == c[j]
        invariant forall j :: i < j <= n ==> a[j] == c[j - 1]
      {
        a[i] := a[i - 1];
        i := i - 1;
      }
      a[0] := x;
      count := n + 1;
      Shifted(c, a[..n + 1], x);
    }

    /** `lval_pop(v, i)`: removes child `i` and returns it; the later children move down by one. */
    method Pop(i: nat) returns (x: Value)
      requires Valid() && i < count
      modifies Repr
      ensures Valid() && Repr == old(Repr) && kind == old(kind)
      ensures x == old(Contents())[i]
      ensures Contents() == old(Contents())[..i] + old(Contents())[i + 1..]
    {
      ghost var c := Contents();
      var a, n := cell, count;
      x := a[i];
      var j := i;
      while j < n - 1
        invariant i <= j <= n - 1
        invariant cell == a && count == n && Repr == old(Repr) && kind == old(kind)
        invariant forall k :: 0 <= k < i ==> a[k] == c[k]
        invariant forall k :: i <= k < j ==> a[k] == c[k + 1]
        invariant forall k :: j < k < n ==> a[k] == c[k]
      {
        a[j] := a[j + 1];
        j := j + 1;
      }
      count := n - 1;
      Closed(c, a[..n - 1], i);
    }

    /** `lval_take(v, i)`: pops child `i` and deletes the container with every other child. */
    method Take(i: nat) returns (x: Value)
      requires Valid() && i < count
      modifies Repr
      ensures Valid() && Repr == old(Repr) && kind == old(kind)
      ensures x == old(Contents())[i] && Contents() == []
    {
      x := Pop(i);
      count := 0;
    }

    /** `lval_join(x, y)`: moves every child of `y`, in order, to the end of this list, leaving `y` empty. */
    method Join(y: ListVal)
      requires Valid() && y.Valid() && Repr !! y.Repr
      modifies Repr, y.Repr
      ensures Valid() && fresh(Repr - old(Repr)) && kind == old(kind)
      ensures y.Valid() && y.Repr == old(y.Repr) && y.kind == old(y.kind)
      ensures Contents() == old(Contents()) + old(y.Contents())
      ensures y.Contents() == []
    {
      ghost var c, d := Contents(), y.Contents();
      ghost var k := 0;
      while y.count > 0
        invariant Valid() && fresh(Repr - old(Repr)) && kind == old(kind)
        invariant y.Valid() && y.Repr == old(y.Repr) && y.kind == old(y.kind)
        invariant Repr !! y.Repr
        invariant 0 <= k <= |d| && Contents() == c + d[..k] && y.Contents() == d[k..]
        decreases y.count
      {
        ghost var before, ys := Contents(), y.Contents();
        var e := y.Pop(0);
        Add(e);
        MoveStep(c, d, k, ys, before, Contents());
        k := k + 1;
      }
      assert d[..k] == d;
    }
  }

  /** What `lval_pop`'s move leaves: the cells before `i`, then those after it, one slot down. */
  lemma Closed(c: seq<Value>, s: seq<Value>, i: nat)
    requires i < |c| && |s| == |c| - 1
    requires forall k :: 0 <= k < i ==> s[k] == c[k]
    requires forall k :: i <= k < |s| ==> s[k] == c[k + 1]
    ensures s == c[..i] + c[i + 1..]
  {
  }

  /** What `lval_push`'s move leaves: `x` in the first slot, the old cells one slot up. */
  lemma Shifted(c: seq<Value>, s: seq<Value>, x: Value)
    requires |s| == |c| + 1 && s[0] == x
    requires forall k :: 1 <= k < |s| ==> s[k] == c[k - 1]
    ensures s == [x] + c
  {
  }

  /** One turn of `lval_join` on the sequences: the first child left in `y` moves to the end. */
  lemma MoveStep(c: seq<Value>, d: seq<Value>, k: nat, ys: seq<Value>, before: seq<Value>, after: seq<Value>)
    requires k < |d| && ys == d[k..] && before == c + d[..k] && after == before + [ys[0]]
    ensures after == c + d[..k + 1] && ys[..0] + ys[1..] == d[k + 1..]
  {
    assert d[..k + 1] == d[..k] + [d[k]];
  }

  /** The byte count `lval_push` passes to `memmove` as written: the product
      binds first, so it is `sizeof(lval*) * count - 1`, with `count` already
      the new count. */
  function PushMoveBytes(ptrSize: nat, count: nat): int {
    ptrSize * count - 1
  }

  /** The bytes from `&cell[1]` to the end of a `count`-slot array: all that the move may write. */
  function PushRoom(ptrSize: nat, count: nat): int
    requires count >= 1
  {
    ptrSize * (count - 1)
  }

  /** As written, the move in `lval_push` writes `ptrSize - 1` bytes past the end
      of the reallocated array, for every list, the empty one included. */
  lemma PushOverrun(ptrSize: nat, count: nat)
    requires ptrSize >= 2 && count >= 1
    ensures PushMoveBytes(ptrSize, count) - PushRoom(ptrSize, count) == ptrSize - 1
    ensures PushMoveBytes(ptrSize, count) > PushRoom(ptrSize, count)
  {
  }

  /** `cons 1 {}` on a 64-bit target: the push onto the empty list moves 7 bytes into a slot that does not exist. */
  lemma PushOverrunOnEmpty()
    ensures PushRoom(8, 1) == 0 && PushMoveBytes(8, 1) == 7
  {
  }
}

=== FILE: printer.dfy ===
/** `lval_print` and `lval_expr_print`, as the text they write. The `%g`
    rendering of a Double is not modelled: it is passed in as `showDub`. */
module Printer {
  import opened Values
  import opened Text

  /** The cells' texts separated by single spaces, with no space before the
      first or after the last. */
  function Spaced(cs: seq<Value>, showDub: real -> string): (s: string)
    ensures cs == [] ==> s == ""
    ensures Count(s, ' ') >= |cs| - 1
    decreases SizeSeq(cs), 2
  {
    if cs == [] then ""
    else if |cs| == 1 then Print(cs[0], showDub)
    else
      var head, rest := Print(cs[0], showDub), Spaced(cs[1..], showDub);
      CountAppend(head, " ", ' ');
      CountAppend(head + " ", rest, ' ');
      head + " " + rest
  }

  /** `lval_print(v)`: the text written for `v`. A list is enclosed in its
      brackets and an error is marked as one. */
  function Print(v: Value, showDub: real -> string): (s: string)
    ensures v.Sexpr? ==> |s| >= 2 && s[0] == '(' && s[|s| - 1] == ')'
    ensures v.Qexpr? ==> |s| >= 2 && s[0] == '{' && s[|s| - 1] == '}'
    ensures v.Err? ==> IsPrefix("Error: ", s)
    decreases Size(v), 1
  {
    match v
    case Num(n) => Show(n)
    case Dub(d) => showDub(d)
    case Err(m) => "Error: " + m
    case Sym(s) => s
    case Sexpr(cs) => "(" + Spaced(cs, showDub) + ")"
    case Qexpr(cs) => "{" + Spaced(cs, showDub) + "}"
  }

  /** One more cell at the end adds a space and its text, unless it is the first. */
  lemma {:induction false} SpacedSnoc(cs: seq<Value>, x: Value, showDub: real -> string)
    ensures Spaced(cs + [x], showDub) ==
      if cs == [] then Print(x, showDub) else Spaced(cs, showDub) + " " + Print(x, showDub)
    decreases |cs|
  {
    if |cs| == 1 {
      assert cs + [x] == [cs[0], x];
      assert [cs[0], x][1..] == [x];
    } else if |cs| > 1 {
      assert (cs + [x])[1..] == cs[1..] + [x];
      SpacedSnoc(cs[1..], x, showDub);
    }
  }

  /** `lval_expr_print(v, open, close)`: the opening character, each cell
      followed by a space unless it is the last, then the closing character. */
  method ExprPrint(cs: seq<Value>, open: char, close: char, showDub: real -> string) returns (out: string)
    ensures out == [open] + Spaced(cs, showDub) + [close]
  {
    out := [open];
    var i := 0;
    while i < |cs|
      invariant 0 <= i <= |cs|
      invariant out == [open] + Spaced(cs[..i], showDub) + Gap(i, |cs|)
    {
      var next := out + Print(cs[i], showDub);
      if i != |cs| - 1 {
        next := next + " ";
      }
      ExprStep(cs, i, open, out, next, showDub);
      out := next;
      i := i + 1;
    }
    assert cs[..|cs|] == cs;
    out := out + [close];
  }

  /** The space the loop has already written after the first `i` of `n` cells. */
  function Gap(i: nat, n: nat): string {
    if 0 < i < n then " " else ""
  }

  /** One turn of the `lval_expr_print` loop extends the spaced text by one cell. */
  lemma ExprStep(cs: seq<Value>, i: nat, open: char, out: string, next: string, showDub: real -> string)
    requires i < |cs|
    requires out == [open] + Spaced(cs[..i], showDub) + Gap(i, |cs|)
    requires next == out + Print(cs[i], showDub) + (if i != |cs| - 1 then " " else "")
    ensures next == [open] + Spaced(cs[..i + 1], showDub) + Gap(i + 1, |cs|)
  {
    var sp := if i != |cs| - 1 then " " else "";
    assert cs[..i + 1] == cs[..i] + [cs[i]];
    SpacedSnoc(cs[..i], cs[i], showDub);
    GapStep(open, Spaced(cs[..i], showDub), Spaced(cs[..i + 1], showDub), Print(cs[i], showDub),
      Gap(i, |cs|), sp, out, next, i == 0);
  }

  /** The string step of `ExprStep`: writing cell text `p` and separator `sp`
      after the text `t` of the earlier cells and its gap gives the text `u` of one more cell. */
  lemma GapStep(open: char, t: string, u: string, p: string, gap: string, sp: string,
                out: string, next: string, first: bool)
    requires out == [open] + t + gap && next == out + p + sp
    requires first ==> t == "" && gap == "" && u == p
    requires !first ==> gap == " " && u == t + " " + p
    ensures next == [open] + u + sp
  {
    if !first {
      assert [open] + t + " " + p == [open] + (t + " " + p);
    }
  }

  /** `lval_print` as it runs: the atoms directly, the lists through `ExprPrint`. */
  method PrintValue(v: Value, showDub: real -> string) returns (out: string)
    ensures out == Print(v, showDub)
  {
    match v
    case Num(n) => out := Show(n);
    case Dub(d) => out := showDub(d);
    case Err(m) => out := "Error: " + m;
    case Sym(s) => out := s;
    case Sexpr(cs) => out := ExprPrint(cs, '(', ')', showDub);
    case Qexpr(cs) => out := ExprPrint(cs, '{', '}', showDub);
  }

  /** How often `c` occurs in `s`. */
  function Count(s: string, c: char): nat {
    if s == [] then 0 else (if s[0] == c then 1 else 0) + Count(s[1..], c)
  }

  lemma {:induction false} CountAppend(s: string, t: string, c: char)
    ensures Count(s + t, c) == Count(s, c) + Count(t, c)
  {
    if s == [] {
      assert s + t == t;
    } else {
      assert (s + t)[1..] == s[1..] + t;
      CountAppend(s[1..], t, c);
    }
  }

  /** Texts in which no bracket character occurs. */
  predicate Bracketless(s: string) {
    forall i :: 0 <= i < |s| ==> s[i] != '(' && s[i] != ')' && s[i] != '{' && s[i] != '}'
  }

  /** Values whose symbols, error messages and rendered Doubles hold no bracket characters. */
  predicate PlainAtoms(v: Value, showDub: real -> string)
    decreases v
  {
    match v
    case Num(_) => true
    case Dub(d) => Bracketless(showDub(d))
    case Err(m) => Bracketless(m)
    case Sym(s) => Bracketless(s)
    case Sexpr(cs) => forall i :: 0 <= i < |cs| ==> PlainAtoms(cs[i], showDub)
    case Qexpr(cs) => forall i :: 0 <= i < |cs| ==> PlainAtoms(cs[i], showDub)
  }

  /** Each bracket character occurs in a text as often as its partner. */
  predicate Balanced(s: string) {
    Count(s, '(') == Count(s, ')') && Count(s, '{') == Count(s, '}')
  }

  lemma {:induction false} BracketlessCount(s: string, c: char)
    requires Bracketless(s) && c in "(){}"
    ensures Count(s, c) == 0
  {
    if s != [] {
      assert Bracketless(s[1..]) by {
        forall i | 0 <= i < |s[1..]| ensures s[1..][i] != c {
          assert s[1..][i] == s[i + 1];
        }
      }
      BracketlessCount(s[1..], c);
    }
  }

  lemma BalancedAppend(s: string, t: string)
    requires Balanced(s) && Balanced(t)
    ensures Balanced(s + t)
  {
    CountAppend(s, t, '(');
    CountAppend(s, t, ')');
    CountAppend(s, t, '{');
    CountAppend(s, t, '}');
  }

  lemma BracketlessBalanced(s: string)
    requires Bracketless(s)
    ensures Balanced(s)
  {
    BracketlessCount(s, '(');
    BracketlessCount(s, ')');
    BracketlessCount(s, '{');
    BracketlessCount(s, '}');
  }

  lemma DigitsBracketless(n: int)
    ensures Bracketless(Show(n))
  {
    var s := Show(n);
    forall i | 0 <= i < |s|
      ensures s[i] != '(' && s[i] != ')' && s[i] != '{' && s[i] != '}'
    {
      if n < 0 {
        if i > 0 {
          assert s[i] == Digits(-n)[i - 1];
        }
      }
    }
  }

  /** With plain atoms, the printed text of a value has its brackets paired:
      every list writes one opening and one closing character. */
  lemma {:induction false} PrintBalanced(v: Value, showDub: real -> string)
    requires PlainAtoms(v, showDub)
    ensures Balanced(Print(v, showDub))
    decreases Size(v), 1
  {
    match v
    case Num(n) =>
      DigitsBracketless(n);
      BracketlessBalanced(Show(n));
    case Dub(d) =>
      BracketlessBalanced(showDub(d));
    case Err(m) =>
      assert Bracketless("Error: ");
      BracketlessBalanced("Error: ");
      BracketlessBalanced(m);
      BalancedAppend("Error: ", m);
    case Sym(s) =>
      BracketlessBalanced(s);
    case Sexpr(cs) =>
      SpacedBalanced(cs, showDub);
      PairBalanced("(", Spaced(cs, showDub), ")");
    case Qexpr(cs) =>
      SpacedBalanced(cs, showDub);
      PairBalanced("{", Spaced(cs, showDub), "}");
  }

  lemma PairBalanced(open: string, s: string, close: string)
    requires (open == "(" && close == ")") || (open == "{" && close == "}")
    requires Balanced(s)
    ensures Balanced(open + s + close)
  {
    CountAppend(open, s, '(');
    CountAppend(open, s, ')');
    CountAppend(open, s, '{');
    CountAppend(open, s, '}');
    CountAppend(open + s, close, '(');
    CountAppend(open + s, close, ')');
    CountAppend(open + s, close, '{');
    CountAppend(open + s, close, '}');
  }

  lemma {:induction false} SpacedBalanced(cs: seq<Value>, showDub: real -> string)
    requires forall i :: 0 <= i < |cs| ==> PlainAtoms(cs[i], showDub)
    ensures Balanced(Spaced(cs, showDub))
    decreases SizeSeq(cs), 2
  {
    if cs != [] {
      PrintBalanced(cs[0], showDub);
      if |cs| > 1 {
        SpacedBalanced(cs[1..], showDub);
        assert Bracketless(" ");
        BracketlessBalanced(" ");
        BalancedAppend(Print(cs[0], showDub), " ");
        BalancedAppend(Print(cs[0], showDub) + " ", Spaced(cs[1..], showDub));
      }
    }
  }

  /** The text printed for an Integer reads back, through `strtol`, as that Integer. */
  lemma PrintNumReadsBack(n: int, showDub: real -> string)
    ensures StrToL(Print(Num(n), showDub)) == n
  {
    StrToLShow(n);
  }
}

=== FILE: reader.dfy ===
/** `lval_read`: turning the parser's syntax tree into a value. A node has
    the tag the grammar gave it (rule names joined by `|`, `>` for the root),
    the matched text, and its children. */
module Reader {
  import opened Values
  import opened Text
  import opened Lists

  datatype Node = Node(tag: string, contents: string, children: seq<Node>)

  /** `lval_read_num`: `strtol` in base 10; a number outside the `long` range is an error. */
  function ReadNum(s: string): (r: Value)
    ensures r.Num? || r == Err(InvalidNumber)
    ensures r.Num? <==> LongRange(StrToL(s))
    ensures r.Num? ==> r.n == StrToL(s)
  {
    var x := StrToL(s);
    if LongRange(x) then Num(x) else Err(InvalidNumber)
  }

  /** `lval_read_dub`: `strtod` on the matched text. The value is negative
      only for a literal with a leading minus, and never below zero without one. */
  function ReadDub(s: string): (r: Value)
    ensures r.Dub?
    ensures s != [] && s[0] == '-' ==> r.d <= 0.0
    ensures (s == [] || s[0] != '-') ==> r.d >= 0.0
  {
    var t := if s != [] && s[0] == '-' then s[1..] else s;
    var whole := DigitPrefix(t);
    var rest := t[|whole|..];
    var frac := if rest != [] && rest[0] == '.' then DigitPrefix(rest[1..]) else [];
    FractionNonNegative(DigitsValue(whole), DigitsValue(frac), Pow10(|frac|));
    Dub(DecimalReal(s))
  }

  /** A tag the first three tests of `lval_read` recognise as an atom. */
  predicate IsAtomTag(tag: string) {
    Contains(tag, "number") || Contains(tag, "double") || Contains(tag, "symbol")
  }

  /** A tag for which `lval_read` starts a list: the root, an S-expression or a Q-expression. */
  predicate IsListTag(tag: string) {
    tag == ">" || Contains(tag, "sexpr") || Contains(tag, "qexpr")
  }

  /** The kind of the list started: the Q-expression test comes last and so wins. */
  function ListKindOf(tag: string): (k: ListKind)
    ensures k == QexprKind <==> Contains(tag, "qexpr")
  {
    if Contains(tag, "qexpr") then QexprKind else SexprKind
  }

  /** The children the reading loop passes over: the bracket tokens and the anchors of the root rule. */
  predicate Skipped(c: Node) {
    c.contents == "(" || c.contents == ")" || c.contents == "}" || c.contents == "{" || c.tag == "regex"
  }

  /** Trees produced by the grammar: every node read is an atom or a list. Any
      other tag would leave the C list pointer null. */
  predicate Readable(t: Node)
    decreases t
  {
    (IsAtomTag(t.tag) || IsListTag(t.tag)) &&
    (IsAtomTag(t.tag) || forall i :: 0 <= i < |t.children| ==> Skipped(t.children[i]) || Readable(t.children[i]))
  }

  /** The value `lval_read` builds from `t`: an atom tag gives an atom, and
      the only error is a number out of range; any other tag gives a list with
      at most one cell per child. */
  function Read(t: Node): (r: Value)
    requires Readable(t)
    ensures r.Err? ==> r == Err(InvalidNumber)
    ensures (r.Sexpr? || r.Qexpr?) <==> !IsAtomTag(t.tag)
    ensures r.Sexpr? || r.Qexpr? ==> |r.cells| <= |t.children|
    decreases t, 1
  {
    if Contains(t.tag, "number") then ReadNum(t.contents)
    else if Contains(t.tag, "double") then ReadDub(t.contents)
    else if Contains(t.tag, "symbol") then Sym(t.contents)
    else MakeList(ListKindOf(t.tag), ReadChildren(t, |t.children|))
  }

  /** The cells added by the first `i` turns of the reading loop. */
  function ReadChildren(t: Node, i: nat): (cs: seq<Value>)
    requires Readable(t) && !IsAtomTag(t.tag) && i <= |t.children|
    ensures |cs| <= i
    decreases t, 0, i
  {
    if i == 0 then []
    else
      var c := t.children[i - 1];
      ReadChildren(t, i - 1) + (if Skipped(c) then [] else [Read(c)])
  }

  /** `lval_read` as it runs: a list is started empty and every child that is
      not skipped is read and added at the end. */
  method ReadTree(t: Node) returns (r: Value)
    requires Readable(t)
    ensures r == Read(t)
    decreases t, 2
  {
    if Contains(t.tag, "number") {
      return ReadNum(t.contents);
    }
    if Contains(t.tag, "double") {
      return ReadDub(t.contents);
    }
    if Contains(t.tag, "symbol") {
      return Sym(t.contents);
    }
    r := ReadList(t);
  }

  /** The list half of `lval_read`: a list of the tag's kind, started empty,
      gains the value of every child that is not skipped, in order. */
  method ReadList(t: Node) returns (r: Value)
    requires Readable(t) && !IsAtomTag(t.tag)
    ensures r == MakeList(ListKindOf(t.tag), ReadChildren(t, |t.children|))
    decreases t, 1
  {
    var x := new ListVal.Empty(ListKindOf(t.tag));
    var i := 0;
    while i < |t.children|
      invariant 0 <= i <= |t.children|
      invariant x.Valid() && fresh(x.Repr) && x.kind == ListKindOf(t.tag)
      invariant x.Contents() == ReadChildren(t, i)
    {
      ReadChild(x, t, i);
      i := i + 1;
    }
    r := x.AsValue();
  }

  /** One turn of the reading loop: child `i` is read and added unless it is skipped. */
  method ReadChild(x: ListVal, t: Node, i: nat)
    requires Readable(t) && !IsAtomTag(t.tag) && i < |t.children|
    requires x.Valid() && x.Contents() == ReadChildren(t, i)
    modifies x.Repr
    ensures x.Valid() && fresh(x.Repr - old(x.Repr)) && x.kind == old(x.kind)
    ensures x.Contents() == ReadChildren(t, i + 1)
    decreases t, 0
  {
    var c := t.children[i];
    ghost var before := x.Contents();
    if !Skipped(c) {
      var e := ReadTree(c);
      x.Add(e);
    }
    ReadChildrenStep(t, i, before, x.Contents());
  }

  /** One turn of the reading loop adds the value of child `i` unless it is skipped. */
  lemma ReadChildrenStep(t: Node, i: nat, before: seq<Value>, after: seq<Value>)
    requires Readable(t) && !IsAtomTag(t.tag) && i < |t.children|
    requires before == ReadChildren(t, i)
    requires after == before + (if Skipped(t.children[i]) then [] else [Read(t.children[i])])
    ensures after == ReadChildren(t, i + 1)
  {
  }

  /** A number read back from its own `%li` text is that number, when it fits a `long`. */
  lemma ReadNumShow(n: int)
    requires LongRange(n)
    ensures ReadNum(Show(n)) == Num(n)
  {
    StrToLShow(n);
  }

  /** The values the grammar can spell: long Integers, symbols that are not
      bracket tokens, and lists of those. */
  predicate Spellable(v: Value)
    decreases v
  {
    match v
    case Num(n) => LongRange(n)
    case Sym(s) => s != "(" && s != ")" && s != "{" && s != "}"
    case Sexpr(cs) => forall i :: 0 <= i < |cs| ==> Spellable(cs[i])
    case Qexpr(cs) => forall i :: 0 <= i < |cs| ==> Spellable(cs[i])
    case _ => false
  }

  const NumberTag := "expr|number|regex"
  const SymbolTag := "expr|symbol|string"
  const SexprTag := "expr|sexpr|>"
  const QexprTag := "expr|qexpr|>"
  const RootTag := ">"

  const OpenParen := Node("char", "(", [])
  const CloseParen := Node("char", ")", [])
  const OpenBrace := Node("char", "{", [])
  const CloseBrace := Node("char", "}", [])
  const Anchor := Node("regex", "", [])

  /** The tree the parser builds for a spellable value, with the tags of the grammar's rules. */
  function Spell(v: Value): (t: Node)
    requires Spellable(v)
    decreases v
  {
    match v
    case Num(n) => Node(NumberTag, Show(n), [])
    case Sym(s) => Node(SymbolTag, s, [])
    case Sexpr(cs) => Node(SexprTag, "", [OpenParen] + SpellAll(cs) + [CloseParen])
    case Qexpr(cs) => Node(QexprTag, "", [OpenBrace] + SpellAll(cs) + [CloseBrace])
  }

  function SpellAll(cs: seq<Value>): (ts: seq<Node>)
    requires forall i :: 0 <= i < |cs| ==> Spellable(cs[i])
    ensures |ts| == |cs|
    decreases cs
  {
    if cs == [] then [] else [Spell(cs[0])] + SpellAll(cs[1..])
  }

  /** The tree of a whole input line: the root rule between its two anchors. */
  function SpellLine(vs: seq<Value>): Node
    requires forall i :: 0 <= i < |vs| ==> Spellable(vs[i])
  {
    Node(RootTag, "", [Anchor] + SpellAll(vs) + [Anchor])
  }

  lemma {:induction false} SpellAllAt(cs: seq<Value>, i: nat)
    requires forall j :: 0 <= j < |cs| ==> Spellable(cs[j])
    requires i < |cs|
    ensures SpellAll(cs)[i] == Spell(cs[i])
  {
    if i > 0 {
      SpellAllAt(cs[1..], i - 1);
    }
  }

  /** A list node whose first child is skipped and whose next children read
      as `vs` reads those values, one turn of the loop at a time. */
  lemma {:induction false} ReadChildrenPrefix(t: Node, vs: seq<Value>, i: nat)
    requires Readable(t) && !IsAtomTag(t.tag)
    requires |t.children| >= |vs| + 1 && Skipped(t.children[0])
    requires forall j :: 1 <= j <= |vs| ==>
      Readable(t.children[j]) && !Skipped(t.children[j]) && Read(t.children[j]) == vs[j - 1]
    requires 1 <= i <= |vs| + 1
    ensures ReadChildren(t, i) == vs[..i - 1]
  {
    if i > 1 {
      ReadChildrenPrefix(t, vs, i - 1);
      assert vs[..i - 1] == vs[..i - 2] + [vs[i - 2]];
    }
  }

  /** Reading what the grammar would build for a spellable value gives that value back. */
  lemma {:induction false} ReadSpell(v: Value)
    requires Spellable(v)
    ensures Readable(Spell(v)) && Read(Spell(v)) == v
    decreases v, 2
  {
    if v.Num? {
      ReadSpellNum(v.n);
    } else if v.Sym? {
      ReadSpellSym(v.name);
    } else {
      ReadSpellList(v);
    }
  }

  lemma ReadSpellNum(n: int)
    requires LongRange(n)
    ensures Readable(Spell(Num(n))) && Read(Spell(Num(n))) == Num(n)
  {
    NumberTagTests("number");
    ReadNumShow(n);
  }

  lemma ReadSpellSym(s: string)
    requires Spellable(Sym(s))
    ensures Readable(Spell(Sym(s))) && Read(Spell(Sym(s))) == Sym(s)
  {
    SymbolTagTests("number"); SymbolTagTests("double"); SymbolTagTests("symbol");
  }

  lemma {:induction false} ReadSpellList(v: Value)
    requires (v.Sexpr? || v.Qexpr?) && Spellable(v)
    ensures Readable(Spell(v)) && Read(Spell(v)) == v
    decreases v, 1
  {
    ReadSpellCells(v);
    if v.Sexpr? {
      SexprTagList();
      ReadListNode(SexprTag, OpenParen, SpellAll(v.cells), CloseParen, v.cells);
    } else {
      QexprTagList();
      ReadListNode(QexprTag, OpenBrace, SpellAll(v.cells), CloseBrace, v.cells);
    }
  }

  // What the tag tests of `lval_read` see in the grammar's own tags: for each
  // tag, which of the words tested in turn it contains.

  /** The number rule's tag passes the `number` test and fails the `double` one. */
  lemma NumberTagTests(word: string)
    requires word == "number" || word == "double"
    ensures Contains(NumberTag, word) <==> word == "number"
  {
    if word == "number" {
      Present(NumberTag, word, 5);
    } else {
      NotContains(NumberTag, word, 0);
    }
  }

  /** The symbol rule's tag fails the `number` and `double` tests and passes the `symbol` one. */
  lemma SymbolTagTests(word: string)
    requires word == "number" || word == "double" || word == "symbol"
    ensures Contains(SymbolTag, word) <==> word == "symbol"
  {
    if word == "number" {
      NotContains(SymbolTag, word, 1);
    } else if word == "double" {
      NotContains(SymbolTag, word, 2);
    } else {
      Present(SymbolTag, word, 5);
    }
  }

  /** The S-expression rule's tag fails the atom tests and the `qexpr` test, and passes `sexpr`. */
  lemma SexprTagTests(word: string)
    requires word == "number" || word == "double" || word == "symbol" || word == "sexpr" || word == "qexpr"
    ensures Contains(SexprTag, word) <==> word == "sexpr"
  {
    if word == "sexpr" {
      Present(SexprTag, word, 5);
    } else if word == "qexpr" {
      NotContains(SexprTag, word, 0);
    } else {
      NotContains(SexprTag, word, 1);
    }
  }

  /** The Q-expression rule's tag fails the atom tests and passes `qexpr`. */
  lemma QexprTagTests(word: string)
    requires word == "number" || word == "double" || word == "symbol" || word == "qexpr"
    ensures Contains(QexprTag, word) <==> word == "qexpr"
  {
    if word == "qexpr" {
      Present(QexprTag, word, 5);
    } else {
      NotContains(QexprTag, word, 1);
    }
  }

  /** The root's tag `>` passes none of the tests. */
  lemma RootTagTests(word: string)
    requires word == "number" || word == "double" || word == "symbol" || word == "qexpr"
    ensures !Contains(RootTag, word)
  {
    NotContains(RootTag, word, 0);
  }

  /** The S-expression rule's tag starts an S-expression. */
  lemma SexprTagList()
    ensures !IsAtomTag(SexprTag) && IsListTag(SexprTag) && ListKindOf(SexprTag) == SexprKind
  {
    SexprTagTests("number"); SexprTagTests("double"); SexprTagTests("symbol");
    SexprTagTests("sexpr"); SexprTagTests("qexpr");
  }

  /** The Q-expression rule's tag starts a Q-expression. */
  lemma QexprTagList()
    ensures !IsAtomTag(QexprTag) && IsListTag(QexprTag) && ListKindOf(QexprTag) == QexprKind
  {
    QexprTagTests("number"); QexprTagTests("double"); QexprTagTests("symbol"); QexprTagTests("qexpr");
  }

  /** The root's tag starts an S-expression. */
  lemma RootTagList()
    ensures !IsAtomTag(RootTag) && IsListTag(RootTag) && ListKindOf(RootTag) == SexprKind
  {
    RootTagTests("number"); RootTagTests("double"); RootTagTests("symbol"); RootTagTests("qexpr");
  }

  /** Element `j` of a sequence between two delimiters is element `j - 1` of the sequence. */
  lemma Enclosed(open: Node, ts: seq<Node>, close: Node, j: nat)
    requires 1 <= j <= |ts|
    ensures ([open] + ts + [close])[j] == ts[j - 1]
  {
  }

  /** A list node between two skipped tokens reads as the list of what its inner children read as. */
  lemma ReadListNode(tag: string, open: Node, ts: seq<Node>, close: Node, vs: seq<Value>)
    requires !IsAtomTag(tag) && IsListTag(tag)
    requires Skipped(open) && Skipped(close) && |ts| == |vs|
    requires forall j :: 0 <= j < |ts| ==> Readable(ts[j]) && !Skipped(ts[j]) && Read(ts[j]) == vs[j]
    ensures Readable(Node(tag, "", [open] + ts + [close]))
    ensures Read(Node(tag, "", [open] + ts + [close])) == MakeList(ListKindOf(tag), vs)
  {
    var t := Node(tag, "", [open] + ts + [close]);
    EnclosedChildren(t, open, ts, close, vs);
    ReadChildrenPrefix(t, vs, |vs| + 1);
    assert vs[..|vs|] == vs;
    assert ReadChildren(t, |t.children|) == ReadChildren(t, |vs| + 1);
  }

  /** The children of a list node between two skipped tokens: the first and
      last are skipped, and the ones between read as the given values. */
  lemma EnclosedChildren(t: Node, open: Node, ts: seq<Node>, close: Node, vs: seq<Value>)
    requires !IsAtomTag(t.tag) && IsListTag(t.tag) && t.children == [open] + ts + [close]
    requires Skipped(open) && Skipped(close) && |ts| == |vs|
    requires forall j :: 0 <= j < |ts| ==> Readable(ts[j]) && !Skipped(ts[j]) && Read(ts[j]) == vs[j]
    ensures Readable(t) && |t.children| == |vs| + 2
    ensures Skipped(t.children[0]) && Skipped(t.children[|vs| + 1])
    ensures forall j :: 1 <= j <= |vs| ==>
      Readable(t.children[j]) && !Skipped(t.children[j]) && Read(t.children[j]) == vs[j - 1]
  {
    forall j | 1 <= j <= |vs|
      ensures Readable(t.children[j]) && !Skipped(t.children[j]) && Read(t.children[j]) == vs[j - 1]
    {
      Enclosed(open, ts, close, j);
    }
    assert t.children[0] == open && t.children[|vs| + 1] == close;
    forall i | 0 <= i < |t.children|
      ensures Skipped(t.children[i]) || Readable(t.children[i])
    {
    }
  }


  /** The cells of a spellable list, spelled, read back one by one. */
  lemma {:induction false} ReadSpellCells(v: Value)
    requires (v.Sexpr? || v.Qexpr?) && Spellable(v)
    ensures forall j :: 0 <= j < |v.cells| ==>
      Readable(SpellAll(v.cells)[j]) && !Skipped(SpellAll(v.cells)[j]) && Read(SpellAll(v.cells)[j]) == v.cells[j]
    decreases v, 0
  {
    var cs := v.cells;
    forall j | 0 <= j < |cs|
      ensures Readable(SpellAll(cs)[j]) && !Skipped(SpellAll(cs)[j]) && Read(SpellAll(cs)[j]) == cs[j]
    {
      SpellAllAt(cs, j);
      ReadSpell(cs[j]);
      NotSkipped(cs[j]);
    }
  }

  /** The node of a spellable value is never one the reading loop passes over. */
  lemma NotSkipped(v: Value)
    requires Spellable(v)
    ensures !Skipped(Spell(v))
  {
    if v.Num? {
      var s := Show(v.n);
      assert IsDigit(s[0]) || s[0] == '-';
      assert |s| >= 2 || IsDigit(s[0]);
    }
  }

  /** A whole line of spellable values reads back as the S-expression holding them. */
  lemma ReadSpellLine(vs: seq<Value>)
    requires forall i :: 0 <= i < |vs| ==> Spellable(vs[i])
    ensures Readable(SpellLine(vs)) && Read(SpellLine(vs)) == Sexpr(vs)
  {
    RootTagList();
    ReadSpellCells(Sexpr(vs));
    ReadListNode(RootTag, Anchor, SpellAll(vs), Anchor, vs);
  }
}

=== FILE: scenarios.dfy ===
/** Whole evaluations of small inputs, each showing one rule of the evaluator
    at work: promotion, truncating division, the unary minus on a Double,
    the division-by-zero and dispatch errors, and the list builtins. */
module Scenarios {
  import opened Values
  import opened Text
  import Arith
  import opened Semantics
  import Laws

  /** Children that are already values are left as they are. */
  lemma {:induction false} EvalAllValues(cs: seq<Value>)
    requires forall j :: 0 <= j < |cs| ==> !cs[j].Sexpr?
    ensures EvalAll(cs) == cs
  {
    if cs != [] {
      EvalAllValues(cs[1..]);
    }
  }

  /** A flat application of a named builtin to values that are not errors. */
  lemma EvalFlat(cs: seq<Value>, f: string)
    requires |cs| >= 2 && cs[0] == Sym(f)
    requires forall j :: 0 <= j < |cs| ==> !cs[j].Sexpr? && !cs[j].Err?
    ensures Eval(Sexpr(cs)) == Builtin(cs[1..], f)
  {
    EvalAllValues(cs);
    FirstErrorNone(cs);
  }

  /** `(+ 1 2.5)` is `3.5`: the Integer is promoted to a Double. */
  lemma AddMixed()
    ensures Eval(Sexpr([Sym("+"), Num(1), Dub(2.5)])) == Dub(3.5)
  {
    EvalFlat([Sym("+"), Num(1), Dub(2.5)], "+");
    assert [Sym("+"), Num(1), Dub(2.5)][1..] == [Num(1), Dub(2.5)];
    Laws.DispatchSymbol([Num(1), Dub(2.5)], "+", 0);
    assert Arith.Fold("+", Dub(1.0), []) == Dub(1.0);
  }

  /** `(% -7 2)` is `-1`: the remainder takes the sign of the dividend. */
  lemma RemainderNegative()
    ensures Eval(Sexpr([Sym("%"), Num(-7), Num(2)])) == Num(-1)
  {
    EvalFlat([Sym("%"), Num(-7), Num(2)], "%");
    assert [Sym("%"), Num(-7), Num(2)][1..] == [Num(-7), Num(2)];
    Laws.DispatchSymbol([Num(-7), Num(2)], "%", 4);
    assert TruncDiv(-7, 2) == -3;
  }

  /** `(/ 10 0 5)` is "Division By Zero!", and the operand after the zero is never used. */
  lemma DivideByZero()
    ensures Eval(Sexpr([Sym("/"), Num(10), Num(0), Num(5)])) == Err(DivZero)
  {
    var cs := [Sym("/"), Num(10), Num(0), Num(5)];
    EvalFlat(cs, "/");
    assert cs[1..] == [Num(10), Num(0), Num(5)];
    Laws.DispatchSymbol(cs[1..], "/", 2);
    assert Arith.AllNumbers(cs[1..]);
    Arith.OpDivZero(cs[1..], "/");
    assert Arith.IsZero(cs[1..][1]);
  }

  /** `(- 5)` is `-5`, but `(- 2.5)` is `2.5`: the negation only writes the Integer field. */
  lemma UnaryMinus()
    ensures Eval(Sexpr([Sym("-"), Num(5)])) == Num(-5)
    ensures Eval(Sexpr([Sym("-"), Dub(2.5)])) == Dub(2.5)
  {
    EvalFlat([Sym("-"), Num(5)], "-");
    assert [Sym("-"), Num(5)][1..] == [Num(5)];
    Laws.DispatchSymbol([Num(5)], "-", 1);
    Arith.OpSingle(Num(5), "-");
    EvalFlat([Sym("-"), Dub(2.5)], "-");
    assert [Sym("-"), Dub(2.5)][1..] == [Dub(2.5)];
    Laws.DispatchSymbol([Dub(2.5)], "-", 1);
    Arith.OpSingle(Dub(2.5), "-");
  }

  /** `(+)` is the symbol `+` itself: a single child is returned without being applied. */
  lemma LoneSymbol()
    ensures Eval(Sexpr([Sym("+")])) == Sym("+")
  {
    Laws.EvalSingle(Sym("+"));
  }

  /** `(^ 2 3)` is "Unknown Function!" although the grammar accepts `^`. */
  lemma Power()
    ensures Eval(Sexpr([Sym("^"), Num(2), Num(3)])) == Err(UnknownFunction)
  {
    EvalFlat([Sym("^"), Num(2), Num(3)], "^");
    assert [Sym("^"), Num(2), Num(3)][1..] == [Num(2), Num(3)];
    Laws.GrammarOnlyOperators([Num(2), Num(3)]);
  }

  /** `(1 2)` is "S-expression Does not start with symbol!". */
  lemma NumberAtHead()
    ensures Eval(Sexpr([Num(1), Num(2)])) == Err(NoSymbolHead)
  {
    Laws.EvalNotSymbol([Num(1), Num(2)]);
  }

  /** `(head {})` is the empty-argument error of `head`. */
  lemma HeadOfEmpty()
    ensures Eval(Sexpr([Sym("head"), Qexpr([])])) == Err(HeadEmpty)
  {
    EvalFlat([Sym("head"), Qexpr([])], "head");
    assert [Sym("head"), Qexpr([])][1..] == [Qexpr([])];
  }

  /** `(cons 1 {2 3})` is `{1 2 3}`. */
  lemma ConsOne()
    ensures Eval(Sexpr([Sym("cons"), Num(1), Qexpr([Num(2), Num(3)])])) == Qexpr([Num(1), Num(2), Num(3)])
  {
    var cs := [Sym("cons"), Num(1), Qexpr([Num(2), Num(3)])];
    EvalFlat(cs, "cons");
    assert cs[1..] == [Num(1), Qexpr([Num(2), Num(3)])];
    assert [Num(1)] + [Num(2), Num(3)] == [Num(1), Num(2), Num(3)];
  }

  /** `(join {1} {2 3})` is `{1 2 3}`. */
  lemma JoinLists()
    ensures Eval(Sexpr([Sym("join"), Qexpr([Num(1)]), Qexpr([Num(2), Num(3)])])) == Qexpr([Num(1), Num(2), Num(3)])
  {
    var cs := [Sym("join"), Qexpr([Num(1)]), Qexpr([Num(2), Num(3)])];
    EvalFlat(cs, "join");
    assert cs[1..] == [Qexpr([Num(1)]), Qexpr([Num(2), Num(3)])];
    Laws.JoinTwo([Num(1)], [Num(2), Num(3)]);
    assert [Num(1)] + [Num(2), Num(3)] == [Num(1), Num(2), Num(3)];
  }

  /** `(eval {…})` evaluates the quoted cells as an S-expression. */
  lemma EvalQuote(q: seq<Value>)
    ensures Eval(Sexpr([Sym("eval"), Qexpr(q)])) == Eval(Sexpr(q))
  {
    var cs := [Sym("eval"), Qexpr(q)];
    EvalFlat(cs, "eval");
    assert cs[1..] == [Qexpr(q)];
    Laws.EvalChecks([Qexpr(q)]);
  }

  /** `(+ 1 2)` is `3`. */
  lemma AddSmall()
    ensures Eval(Sexpr([Sym("+"), Num(1), Num(2)])) == Num(3)
  {
    var q := [Sym("+"), Num(1), Num(2)];
    EvalFlat(q, "+");
    assert q[1..] == [Num(1), Num(2)];
    Laws.DispatchSymbol([Num(1), Num(2)], "+", 0);
  }

  /** `(eval {+ 1 2})` is `3`: the Q-expression is evaluated as an SExpr. */
  lemma EvalQuoted()
    ensures Eval(Sexpr([Sym("eval"), Qexpr([Sym("+"), Num(1), Num(2)])])) == Num(3)
  {
    EvalQuote([Sym("+"), Num(1), Num(2)]);
    AddSmall();
  }

  /** `(head {+ - + - *})` is `{+}`. */
  lemma HeadOfOperators()
    ensures Eval(Sexpr([Sym("head"), Qexpr([Sym("+"), Sym("-"), Sym("+"), Sym("-"), Sym("*")])])) == Qexpr([Sym("+")])
  {
    var ops := [Sym("+"), Sym("-"), Sym("+"), Sym("-"), Sym("*")];
    EvalFlat([Sym("head"), Qexpr(ops)], "head");
    assert [Sym("head"), Qexpr(ops)][1..] == [Qexpr(ops)];
  }

  /** `eval` of anything whose value is a one-symbol Q-expression is that symbol. */
  lemma EvalOfLoneSymbol(inner: Value, f: string)
    requires Eval(inner) == Qexpr([Sym(f)])
    ensures Eval(Sexpr([Sym("eval"), inner])) == Sym(f)
  {
    var cs := [Sym("eval"), inner];
    Laws.EvalApply(cs, "eval");
    assert EvalAll(cs)[1..] == [Qexpr([Sym(f)])];
    Laws.EvalSingle(Sym(f));
  }

  /** `(eval (head {+ - + - *}))` is the symbol `+`: `head` leaves `{+}`, and
      evaluating `(+)` returns its single child without applying it. */
  lemma EvalHeadOfOperators()
    ensures Eval(Sexpr([Sym("eval"), Sexpr([Sym("head"), Qexpr([Sym("+"), Sym("-"), Sym("+"), Sym("-"), Sym("*")])])]))
      == Sym("+")
  {
    HeadOfOperators();
    EvalOfLoneSymbol(Sexpr([Sym("head"), Qexpr([Sym("+"), Sym("-"), Sym("+"), Sym("-"), Sym("*")])]), "+");
  }

  /** `(list 1 2 3)` is `{1 2 3}`. */
  lemma ListOfNumbers()
    ensures Eval(Sexpr([Sym("list"), Num(1), Num(2), Num(3)])) == Qexpr([Num(1), Num(2), Num(3)])
  {
    var cs := [Sym("list"), Num(1), Num(2), Num(3)];
    EvalFlat(cs, "list");
    assert cs[1..] == [Num(1), Num(2), Num(3)];
  }

  /** `(eval {eval 1 2})` is the count error of the inner `eval`, although the
      outer one is passed a single Q-expression. */
  lemma NestedEvalCount()
    ensures Eval(Sexpr([Sym("eval"), Qexpr([Sym("eval"), Num(1), Num(2)])])) == Err(EvalCount)
  {
    var q := [Sym("eval"), Num(1), Num(2)];
    var cs := [Sym("eval"), Qexpr(q)];
    EvalFlat(cs, "eval");
    assert cs[1..] == [Qexpr(q)];
    EvalFlat(q, "eval");
    assert q[1..] == [Num(1), Num(2)];
  }
}

=== FILE: semantics.dfy ===
/** The builtins, their dispatch and the evaluator as functions on values:
    the specification the in-place methods of `Interp` are proved against. */
module Semantics {
  import opened Values
  import opened Text
  import Arith

  /** What evaluation can return: anything but a non-empty SExpr. */
  predicate Reduced(v: Value) {
    !v.Sexpr? || v.cells == []
  }

  predicate AllQexpr(args: seq<Value>) {
    forall i :: 0 <= i < |args| ==> args[i].Qexpr?
  }

  /** The children of a sequence of Q-expressions, concatenated in order. */
  function Flatten(qs: seq<Value>): seq<Value>
    requires AllQexpr(qs)
  {
    if qs == [] then [] else qs[0].cells + Flatten(qs[1..])
  }

  lemma {:induction false} SizeFlatten(qs: seq<Value>)
    requires AllQexpr(qs)
    ensures SizeSeq(Flatten(qs)) + |qs| == SizeSeq(qs)
  {
    if qs != [] {
      SizeFlatten(qs[1..]);
      SizeSeqAppend(qs[0].cells, Flatten(qs[1..]));
    }
  }

  /** `builtin_list`: the argument list, retagged as a Q-expression; the node
      count is that of the argument list. */
  function List(args: seq<Value>): (r: Value)
    ensures Size(r) == 1 + SizeSeq(args)
  {
    Qexpr(args)
  }

  /** `builtin_head`: checks count, type and emptiness in that order, then keeps the first child. */
  function Head(args: seq<Value>): (r: Value)
    ensures Size(r) <= 1 + SizeSeq(args)
  {
    if |args| != 1 then Err(HeadCount)
    else if !args[0].Qexpr? then Err(HeadType)
    else if args[0].cells == [] then Err(HeadEmpty)
    else
      var c := args[0].cells;
      assert SizeSeq([c[0]]) == Size(c[0]) && Size(c[0]) <= SizeSeq(c);
      Qexpr([c[0]])
  }

  /** `builtin_tail`: the same checks with its own messages, then drops the first child. */
  function Tail(args: seq<Value>): (r: Value)
    ensures Size(r) <= 1 + SizeSeq(args)
  {
    if |args| != 1 then Err(TailCount)
    else if !args[0].Qexpr? then Err(TailType)
    else if args[0].cells == [] then Err(TailEmpty)
    else
      var c := args[0].cells;
      assert SizeSeq(c) == Size(c[0]) + SizeSeq(c[1..]);
      Qexpr(c[1..])
  }

  /** `builtin_join`: every argument must be a Q-expression; their children are concatenated. */
  function Join(args: seq<Value>): (r: Value)
    requires |args| >= 1
    ensures Size(r) <= 1 + SizeSeq(args)
  {
    if !AllQexpr(args) then Err(JoinType)
    else
      SizeFlatten(args);
      Qexpr(Flatten(args))
  }

  /** `builtin_cons`: exactly two arguments, the second a Q-expression; the first is prepended to it. */
  function Cons(args: seq<Value>): (r: Value)
    ensures Size(r) <= 1 + SizeSeq(args)
  {
    if |args| != 2 then Err(ConsCount)
    else if !args[1].Qexpr? then Err(ConsType)
    else
      var c := args[1].cells;
      assert ([args[0]] + c)[1..] == c;
      assert SizeSeq(args[1..]) == Size(args[1]) + SizeSeq(args[1..][1..]);
      Qexpr([args[0]] + c)
  }

  /** The names the `strstr` test against the string of the five operators lets through to `builtin_op`. */
  predicate IsOperator(func: string) {
    Contains("+-/*%", func)
  }

  /** The names `builtin` compares against before trying the operators. */
  predicate IsListFunction(func: string) {
    func == "list" || func == "head" || func == "tail" || func == "join" || func == "eval" || func == "cons"
  }

  /** `builtin(a, func)`. The evaluator only calls it with at least one argument. */
  function Builtin(args: seq<Value>, func: string): (r: Value)
    requires |args| >= 1
    ensures Size(r) <= 1 + SizeSeq(args)
    ensures Reduced(r)
    decreases 1 + SizeSeq(args), 1
  {
    if func == "list" then List(args)
    else if func == "head" then Head(args)
    else if func == "tail" then Tail(args)
    else if func == "join" then Join(args)
    else if func == "eval" then BuiltinEval(args)
    else if func == "cons" then Cons(args)
    else if IsOperator(func) then Arith.Op(args, func)
    else Err(UnknownFunction)
  }

  /** `builtin_eval`: exactly one Q-expression argument, retagged as an SExpr and evaluated. */
  function BuiltinEval(args: seq<Value>): (r: Value)
    ensures Size(r) <= 1 + SizeSeq(args)
    ensures Reduced(r)
    decreases 1 + SizeSeq(args), 0
  {
    if |args| != 1 then Err(EvalCount)
    else if !args[0].Qexpr? then Err(EvalType)
    else Eval(Sexpr(args[0].cells))
  }

  /** `lval_eval`: an SExpr is reduced, every other value is its own result.
      Evaluation never adds nodes. */
  function Eval(v: Value): (r: Value)
    ensures Size(r) <= Size(v)
    ensures Reduced(r)
    decreases Size(v), 2
  {
    if v.Sexpr? then EvalSexpr(v.cells) else v
  }

  /** The index of the leftmost error, or `|es|` when there is none. */
  function FirstError(es: seq<Value>): (k: nat)
    ensures k <= |es|
    ensures k < |es| ==> es[k].Err?
    ensures forall j :: 0 <= j < k ==> !es[j].Err?
  {
    if es == [] then 0 else if es[0].Err? then 0 else 1 + FirstError(es[1..])
  }

  /** Without an error the search runs to the end. */
  lemma {:induction false} FirstErrorNone(es: seq<Value>)
    requires forall j :: 0 <= j < |es| ==> !es[j].Err?
    ensures FirstError(es) == |es|
  {
    if es != [] {
      FirstErrorNone(es[1..]);
    }
  }

  /** The children, each evaluated, in order. */
  function EvalAll(cs: seq<Value>): (es: seq<Value>)
    ensures |es| == |cs|
    ensures forall i :: 0 <= i < |es| ==> Reduced(es[i])
    ensures SizeSeq(es) <= SizeSeq(cs)
    decreases 1 + SizeSeq(cs), 0
  {
    if cs == [] then []
    else
      SizeSeqElement(cs, 0);
      [Eval(cs[0])] + EvalAll(cs[1..])
  }

  /** `lval_eval_sexpr`: evaluate the children; the leftmost error wins; an empty
      SExpr is returned as it is; a single child is the result; otherwise the
      first child must be a symbol naming the builtin to apply to the rest. */
  function EvalSexpr(cs: seq<Value>): (r: Value)
    ensures Size(r) <= 1 + SizeSeq(cs)
    ensures Reduced(r)
    decreases 1 + SizeSeq(cs), 1
  {
    var es := EvalAll(cs);
    var k := FirstError(es);
    if k < |es| then es[k]
    else if |es| == 0 then Sexpr([])
    else if |es| == 1 then es[0]
    else if !es[0].Sym? then Err(NoSymbolHead)
    else Builtin(es[1..], es[0].name)
  }

  /** `EvalAll` evaluates each child on its own. */
  lemma {:induction false} EvalAllAt(cs: seq<Value>, i: nat)
    requires i < |cs|
    ensures EvalAll(cs)[i] == Eval(cs[i])
  {
    if i > 0 {
      EvalAllAt(cs[1..], i - 1);
    }
  }

  /** Joining two runs of Q-expressions one after the other joins their children in the same order. */
  lemma {:induction false} FlattenAppend(a: seq<Value>, b: seq<Value>)
    requires AllQexpr(a) && AllQexpr(b)
    ensures AllQexpr(a + b) && Flatten(a + b) == Flatten(a) + Flatten(b)
  {
    if a == [] {
      assert a + b == b;
    } else {
      assert (a + b)[1..] == a[1..] + b;
      FlattenAppend(a[1..], b);
    }
  }

  /** The children of the first `k + 1` Q-expressions are those of the first `k` followed by those of the next one. */
  lemma FlattenSnoc(qs: seq<Value>, k: nat)
    requires AllQexpr(qs) && k < |qs|
    ensures Flatten(qs[..k + 1]) == Flatten(qs[..k]) + qs[k].cells
  {
    assert qs[..k + 1] == qs[..k] + [qs[k]];
    FlattenAppend(qs[..k], [qs[k]]);
    assert Flatten([qs[k]]) == qs[k].cells + Flatten([]);
  }
}

=== FILE: text.dfy ===
/** The C string routines the evaluator relies on: `strstr` for tag and
    operator tests, `%li` formatting, and the `strtol`/`strtod` number readers. */
module Text {

  predicate IsPrefix(p: string, s: string) {
    |p| <= |s| && s[..|p|] == p
  }

  /** `strstr(hay, needle) != NULL`: `needle` occurs in `hay` (the empty string occurs everywhere). */
  predicate Contains(hay: string, needle: string)
    ensures Contains(hay, needle) ==> |needle| <= |hay|
    ensures needle == [] ==> Contains(hay, needle)
    decreases |hay|
  {
    IsPrefix(needle, hay) || (hay != [] && Contains(hay[1..], needle))
  }

  /** A needle holding a character that `hay` lacks does not occur in it. */
  lemma {:induction false} NotContains(hay: string, needle: string, k: nat)
    requires k < |needle| && needle[k] !in hay
    ensures !Contains(hay, needle)
  {
    if hay != [] {
      NotContains(hay[1..], needle, k);
    }
  }

  /** A needle found at position `k` occurs in `hay`. */
  lemma {:induction false} Present(hay: string, needle: string, k: nat)
    requires k <= |hay| && IsPrefix(needle, hay[k..])
    ensures Contains(hay, needle)
  {
    if k > 0 {
      assert hay[1..][k - 1..] == hay[k..];
      Present(hay[1..], needle, k - 1);
    }
  }

  /** A needle that is found occurs at some position of `hay`: together with
      `Present`, `Contains` holds exactly when there is an occurrence. */
  lemma {:induction false} Found(hay: string, needle: string)
    requires Contains(hay, needle)
    ensures exists k :: 0 <= k <= |hay| && IsPrefix(needle, hay[k..])
    decreases |hay|
  {
    if IsPrefix(needle, hay) {
      assert hay[0..] == hay;
    } else {
      Found(hay[1..], needle);
      var k :| 0 <= k <= |hay[1..]| && IsPrefix(needle, hay[1..][k..]);
      assert hay[1..][k..] == hay[k + 1..];
    }
  }

  predicate IsDigit(c: char) {
    '0' <= c <= '9'
  }

  function DigitValue(c: char): (d: nat)
    requires IsDigit(c)
    ensures d < 10
  {
    c as int - '0' as int
  }

  function DigitChar(d: nat): (c: char)
    requires d < 10
    ensures IsDigit(c) && DigitValue(c) == d
  {
    ('0' as int + d) as char
  }

  /** Decimal digits of `n`, most significant first, no leading zeros. */
  function Digits(n: nat): (ds: string)
    ensures |ds| >= 1 && forall i :: 0 <= i < |ds| ==> IsDigit(ds[i])
  {
    if n < 10 then [DigitChar(n)] else Digits(n / 10) + [DigitChar(n % 10)]
  }

  /** `printf("%li", n)`: a minus sign exactly for a negative number, then
      at least one decimal digit. */
  function Show(n: int): (s: string)
    ensures |s| >= 1
    ensures s[0] == '-' <==> n < 0
    ensures forall i :: 0 < i < |s| ==> IsDigit(s[i])
  {
    if n < 0 then "-" + Digits(-n) else Digits(n)
  }

  /** The value of a string of decimal digits. */
  function DigitsValue(ds: string): nat
    requires forall i :: 0 <= i < |ds| ==> IsDigit(ds[i])
  {
    if ds == [] then 0
    else DigitsValue(ds[..|ds| - 1]) * 10 + DigitValue(ds[|ds| - 1])
  }

  /** The longest prefix of `s` made of decimal digits. */
  function DigitPrefix(s: string): (ds: string)
    ensures IsPrefix(ds, s)
    ensures forall i :: 0 <= i < |ds| ==> IsDigit(ds[i])
    ensures |ds| < |s| ==> !IsDigit(s[|ds|])
  {
    if s == [] || !IsDigit(s[0]) then [] else [s[0]] + DigitPrefix(s[1..])
  }

  predicate IsSpace(c: char) {
    c == ' ' || c == '\t' || c == '\n' || c == '\r' || c == '\U{B}' || c == '\U{C}'
  }

  function SkipSpace(s: string): string {
    if s != [] && IsSpace(s[0]) then SkipSpace(s[1..]) else s
  }

  /** The unclamped number `strtol(s, NULL, 10)` reads: leading white space, an
      optional sign and the longest run of digits after it (none reads as 0). */
  function StrToL(s: string): (x: int)
    ensures x < 0 ==> SkipSpace(s) != [] && SkipSpace(s)[0] == '-'
  {
    var t := SkipSpace(s);
    if t != [] && t[0] == '-' then -(DigitsValue(DigitPrefix(t[1..])) as int)
    else if t != [] && t[0] == '+' then DigitsValue(DigitPrefix(t[1..]))
    else DigitsValue(DigitPrefix(t))
  }

  const LongMin: int := -0x8000_0000_0000_0000
  const LongMax: int := 0x7FFF_FFFF_FFFF_FFFF

  /** `strtol` reports `ERANGE` exactly when the number it read does not fit a `long`. */
  predicate LongRange(x: int) {
    LongMin <= x <= LongMax
  }

  function Pow10(k: nat): (p: nat)
    ensures p >= 1
  {
    if k == 0 then 1 else 10 * Pow10(k - 1)
  }

  /** The exact value of a decimal `-?digits(.digits)?`, as `strtod` reads the
      double literals of the grammar. */
  function DecimalReal(s: string): real {
    var neg := s != [] && s[0] == '-';
    var t := if neg then s[1..] else s;
    var whole := DigitPrefix(t);
    var rest := t[|whole|..];
    var frac := if rest != [] && rest[0] == '.' then DigitPrefix(rest[1..]) else [];
    var x := DigitsValue(whole) as real + (DigitsValue(frac) as real) / (Pow10(|frac|) as real);
    if neg then -x else x
  }

  /** A whole part plus a fraction over a power of ten is never negative. */
  lemma FractionNonNegative(a: nat, b: nat, p: nat)
    requires p >= 1
    ensures a as real + (b as real) / (p as real) >= 0.0
  {
    assert (b as real) / (p as real) * (p as real) == b as real;
  }

  lemma {:induction false} DigitsRoundTrip(n: nat)
    ensures DigitsValue(Digits(n)) == n
  {
    if n >= 10 {
      var ds := Digits(n);
      assert ds[..|ds| - 1] == Digits(n / 10);
      DigitsRoundTrip(n / 10);
    }
  }

  lemma {:induction false} DigitPrefixOfDigits(ds: string)
    requires forall i :: 0 <= i < |ds| ==> IsDigit(ds[i])
    ensures DigitPrefix(ds) == ds
  {
    if ds != [] {
      DigitPrefixOfDigits(ds[1..]);
    }
  }

  /** `strtol` reads back exactly the number `%li` printed. */
  lemma StrToLShow(n: int)
    ensures StrToL(Show(n)) == n
  {
    var m: nat := if n < 0 then -n else n;
    var ds := Digits(m);
    DigitsRoundTrip(m);
    DigitPrefixOfDigits(ds);
    assert IsDigit(ds[0]);
    if n < 0 {
      var s := "-" + ds;
      assert s[0] == '-' && !IsSpace(s[0]) && s[1..] == ds;
      assert SkipSpace(s) == s;
    } else {
      assert !IsSpace(ds[0]);
      assert SkipSpace(ds) == ds;
    }
  }
}

=== FILE: value.dfy ===
/** The `lval` value type of the evaluator, its node count, the error
    messages the builtins produce, and C's truncating integer division. */
module Values {

  /** One `lval`. The two list variants own their children as a sequence, so
      the C invariant "count equals the number of cells" holds by construction.
      A Double carries its payload as an exact real (IEEE rounding is not modelled). */
  datatype Value =
    | Err(msg: string)
    | Dub(d: real)
    | Num(n: int)
    | Sym(name: string)
    | Sexpr(cells: seq<Value>)
    | Qexpr(cells: seq<Value>)

  /** The `type` tag a list lval can carry; `list` and `eval` switch it in place. */
  datatype ListKind = SexprKind | QexprKind

  function MakeList(k: ListKind, cs: seq<Value>): (v: Value)
    ensures v.Sexpr? <==> k == SexprKind
    ensures (v.Sexpr? || v.Qexpr?) && v.cells == cs
  {
    if k == SexprKind then Sexpr(cs) else Qexpr(cs)
  }

  predicate IsNumber(v: Value) {
    v.Num? || v.Dub?
  }

  // The messages are part of the observable behaviour: each check has its own.
  const HeadCount := "Function 'head' passed too many arguments!"
  const HeadType := "Function 'head' passed incorrect type!"
  const HeadEmpty := "Function 'head' passed {}!"
  const TailCount := "Function 'tail' passed too many arguments!"
  const TailType := "Function 'tail' passed incorrect type!"
  const TailEmpty := "Function 'tail' passed {}!"
  const JoinType := "Function 'join' passed incorrect type."
  const EvalCount := "Function 'eval' passed too many arguments!"
  const EvalType := "Function 'eval' passed incorrect type!"
  const ConsCount := "Function 'cons' passed incorrect arguments!"
  const ConsType := "Function 'cons' passed incorrect type!"
  const NonNumber := "Cannot operate on non-number!"
  const DivZero := "Division By Zero!"
  const UnknownFunction := "Unknown Function!"
  const NoSymbolHead := "S-expression Does not start with symbol!"
  const InvalidNumber := "invalid number"

  /** Number of lval nodes in a value tree: the termination measure of evaluation. */
  function Size(v: Value): (k: nat)
    ensures k >= 1
  {
    match v
    case Sexpr(cs) => 1 + SizeSeq(cs)
    case Qexpr(cs) => 1 + SizeSeq(cs)
    case _ => 1
  }

  function SizeSeq(cs: seq<Value>): nat {
    if cs == [] then 0 else Size(cs[0]) + SizeSeq(cs[1..])
  }

  lemma {:induction false} SizeSeqAppend(a: seq<Value>, b: seq<Value>)
    ensures SizeSeq(a + b) == SizeSeq(a) + SizeSeq(b)
  {
    if a == [] {
      assert a + b == b;
    } else {
      assert (a + b)[1..] == a[1..] + b;
      SizeSeqAppend(a[1..], b);
    }
  }

  lemma {:induction false} SizeSeqElement(cs: seq<Value>, i: nat)
    requires i < |cs|
    ensures Size(cs[i]) <= SizeSeq(cs)
  {
    if i > 0 {
      SizeSeqElement(cs[1..], i - 1);
    }
  }

  /** Removing one cell removes exactly that cell's nodes. */
  lemma {:induction false} SizeSeqRemove(cs: seq<Value>, i: nat)
    requires i < |cs|
    ensures SizeSeq(cs[..i] + cs[i + 1..]) + Size(cs[i]) == SizeSeq(cs)
  {
    var r := cs[..i] + cs[i + 1..];
    if i == 0 {
      assert r == cs[1..];
    } else {
      SizeSeqRemove(cs[1..], i - 1);
      assert r[0] == cs[0] && r[1..] == cs[1..][..i - 1] + cs[1..][i..];
      assert cs[1..][i - 1] == cs[i];
    }
  }

  function Abs(x: int): nat {
    if x < 0 then -x else x
  }

  /** C99 `/` on integers: the quotient rounded toward zero, so its magnitude
      is the floored quotient of the magnitudes and its sign is the product of the signs. */
  function TruncDiv(a: int, b: int): (q: int)
    requires b != 0
    ensures Abs(q) == Abs(a) / Abs(b)
    ensures q != 0 ==> (q < 0 <==> (a < 0) != (b < 0))
  {
    var m := Abs(a) / Abs(b);
    QuotientNonNegative(Abs(a), Abs(b));
    if (a < 0) == (b < 0) then m else -m
  }

  lemma QuotientNonNegative(x: nat, y: nat)
    requires y > 0
    ensures x / y >= 0
  {
  }

  /** C99 `%` on integers: the remainder that goes with `TruncDiv`. It is
      smaller than the divisor and, unless zero, takes the sign of the dividend. */
  function TruncMod(a: int, b: int): (r: int)
    requires b != 0
    ensures Abs(r) < Abs(b)
    ensures r != 0 ==> (r < 0 <==> a < 0)
  {
    RemainderBounds(a, b);
    a - b * TruncDiv(a, b)
  }

  /** The C99 contract of `/` and `%`: they split `a`, the remainder is smaller
      than the divisor and, unless zero, takes the sign of the dividend. */
  lemma TruncDivMod(a: int, b: int)
    requires b != 0
    ensures a == b * TruncDiv(a, b) + TruncMod(a, b)
    ensures Abs(TruncMod(a, b)) < Abs(b)
    ensures TruncMod(a, b) != 0 ==> (TruncMod(a, b) < 0 <==> a < 0)
    ensures Abs(TruncDiv(a, b)) == Abs(a) / Abs(b)
  {
  }

  /** What is left after taking the truncated quotient's multiple of `b` from `a`. */
  lemma RemainderBounds(a: int, b: int)
    requires b != 0
    ensures Abs(a - b * TruncDiv(a, b)) < Abs(b)
    ensures a - b * TruncDiv(a, b) != 0 ==> (a - b * TruncDiv(a, b) < 0 <==> a < 0)
  {
    var q, r := Abs(a) / Abs(b), Abs(a) % Abs(b);
    var m := Abs(b) * q;
    assert Abs(a) == m + r && 0 <= r < Abs(b);
    SignedProduct(a, b, q);
    assert a - b * TruncDiv(a, b) == (if a < 0 then -r else r);
  }

  /** The product of the divisor and the truncated quotient carries the sign of the dividend. */
  lemma SignedProduct(a: int, b: int, q: nat)
    requires b != 0 && q == Abs(a) / Abs(b)
    ensures b * TruncDiv(a, b) == (if a < 0 then -(Abs(b) * q) else Abs(b) * q)
  {
    if b < 0 {
      NegateProduct(Abs(b), q);
    }
  }

  lemma NegateProduct(x: int, y: int)
    ensures (-x) * (-y) == x * y && (-x) * y == -(x * y)
  {
  }

  /** Truncation of a real toward zero. */
  function Trunc(x: real): int {
    if x >= 0.0 then x.Floor else -((-x).Floor)
  }

  function RealAbs(x: real): real {
    if x < 0.0 then -x else x
  }

  /** `fmod` on the exact reals: `x - n * y` with `n` the quotient truncated
      toward zero. Like C's `fmod`, the result is smaller than `y` and, unless
      zero, has the sign of `x`. */
  function FMod(x: real, y: real): (r: real)
    requires y != 0.0
    ensures RealAbs(r) < RealAbs(y)
    ensures r != 0.0 ==> (r < 0.0 <==> x < 0.0)
  {
    FModBounds(x, y);
    x - (Trunc(x / y) as real) * y
  }

  /** The part of `x / y` that truncation drops is less than one and has the
      sign of the quotient, so `x - n * y` is that part times `y`. */
  lemma FModBounds(x: real, y: real)
    requires y != 0.0
    ensures RealAbs(x - (Trunc(x / y) as real) * y) < RealAbs(y)
    ensures x - (Trunc(x / y) as real) * y != 0.0 ==> (x - (Trunc(x / y) as real) * y < 0.0 <==> x < 0.0)
  {
    var q := x / y;
    var f := q - Trunc(q) as real;
    assert x == q * y;
    assert x - (Trunc(q) as real) * y == f * y;
    assert -1.0 < f < 1.0;
    assert f != 0.0 ==> (f < 0.0 <==> q < 0.0);
    ProductSign(f, y);
    ProductSign(q, y);
  }

  /** The sign rule of a product, and a factor below one in magnitude shrinks the other. */
  lemma ProductSign(u: real, y: real)
    requires y != 0.0
    ensures u * y < 0.0 <==> (u < 0.0) != (y < 0.0) && u != 0.0
    ensures -1.0 < u < 1.0 ==> RealAbs(u * y) < RealAbs(y)
  {
    if y > 0.0 {
      if u < 0.0 {
        assert u * y < 0.0;
      } else if u > 0.0 {
        assert u * y > 0.0;
      }
      if -1.0 < u < 1.0 {
        assert (1.0 - u) * y > 0.0 && (1.0 + u) * y > 0.0;
      }
    } else {
      if u < 0.0 {
        assert u * y > 0.0;
      } else if u > 0.0 {
        assert u * y < 0.0;
      }
      if -1.0 < u < 1.0 {
        assert (1.0 - u) * y < 0.0 && (1.0 + u) * y < 0.0;
      }
    }
  }
}
